=== FILE: README.md ===
# GeoJSON.Net geometry values in Dafny

This project models the geometry value layer of GeoJSON.Net, a .NET library for GeoJSON (RFC 7946). It covers:

- `GeographicPosition`: the longitude/latitude/altitude triple. This includes its constructor, `Parse`, its accessors, and its tolerant and strict equality.
- `PositionArrayHelpers`: ring closure, the linear-ring test, and the two position-list comparers with their 19/31 hash folds.
- `LineString` and `Polygon`: their validating constructors, closure tests and equality.
- The three multi-geometries `MultiPoint`, `MultiLineString` and `MultiPolygon`, as plain containers without validation.
- The newer `MultiPoint` of `Point`s. This covers its `==`, which calls itself through `!=`, and its 397-xor hash loop.
- `GeographicPositionConverter`: the JSON form of a position.
- `MultiPolygonConverter`: the JSON form of a list of polygons.
- `Feature` and `FeatureCollection` with their constructors and factories.

Modelling conventions:

- Doubles are `real`.
- The ten-decimal-place double comparer is a parameter `near` of every tolerant comparison.
- A null reference is `None`, or `Null` in a `Runtime.Ref`.
- An instance the code does not accept as the expected type is `Foreign`. Where the code compares exact runtime types, that is any other runtime type. Where it casts with `as`, it is an object of an unrelated type.
- An exception is the `Failure` of a `Result` naming the exception, the parameter name, and the reason in place of the message.
- `GeoJSONObject`'s own `Equals` and `GetHashCode` are not part of this model. They come in as the parameters `baseEqual` and `baseHash`.
- `Point.Equals` and `Point.GetHashCode` are not part of this model either. They come in as `pointEq` and `pointHash`.
- The same holds for `PolygonConverter`, which comes in as `readPolygon`.
- Hash arithmetic is unchecked 32-bit arithmetic, written as `bv32`.
- LINQ's `Select`, `SequenceEqual`, `Any`, `Where` and `Aggregate` are defined once in `Linq`, together with their elementwise meaning.

Behaviour of the code that a reader of RFC 7946 might not expect:

- `LineString.IsClosed` compares the end positions with the tolerant `Equals`. Section 3.1.6 of RFC 7946 requires the first and last positions of a linear ring to be identical, and `Polygon` checks exactly that. So a LineString can be a linear ring by its own `IsLinearRing` while `Polygon` refuses it (`Polygons.TolerantRingRefused`).
- `GeographicPositionConverter.ReadJson` reads a position array as `double[]` and then looks only at its first three entries. Numeric items after the third are ignored (`GeographicPositionConverter.ReadIgnoresExtraItems`). A non-numeric item fails the read wherever it stands (`GeographicPositionConverter.NonNumericExtraItemFails`).
- It also fails on an array shorter than two with an index error.
- The constructors of `MultiLineString` and `MultiPolygon` taking raw coordinates validate nothing. Section 3.1.4 of RFC 7946 asks for two or more positions per line, and section 3.1.6 for closed rings of four or more (`MultiLineStrings.ShortLinesAccepted`, `MultiPolygons.UnvalidatedRingAccepted`).
- The `PositonArrayComparer` hashes are folded over reference-identity hashes of the positions. So they are not consistent with the value equality they accompany, and the model treats position hashes as inputs.
- In the newer `MultiPoint`, a subclass instance is an ordinary `Obj`: `as MultiPoint` lets it through, and neither `Equals(MultiPoint)` nor the operators are virtual.

## Model

| member | source | states |
|---|---|---|
| GeographicPositions.Create | GeoJSON.Net/Geometry/GeographicPosition.cs:33-38 | latitude is the first argument but each accessor returns its own argument; altitude is present exactly when given |
| GeographicPositions.GeographicPosition.Altitude | GeoJSON.Net/Geometry/GeographicPosition.cs:95 | the altitude exists exactly when the coordinate array has a third entry, and is that entry |
| GeographicPositions.CreateFromAccessors | GeoJSON.Net/Geometry/GeographicPosition.cs:95-107 | every position is rebuilt exactly by the constructor from its latitude, longitude and altitude |
| GeographicPositions.Parse | GeoJSON.Net/Geometry/GeographicPosition.cs:46-90 | the null, blank, latitude, longitude and altitude checks in source order, with their parameter names; success exactly when all pass; the parsed values land in the accessors, and an altitude exists exactly when altitude text was given |
| GeographicPositions.ParseAgreesWithCreate | GeoJSON.Net/Geometry/GeographicPosition.cs:81-89 | parsing valid texts gives the position the numeric constructor builds from the parsed numbers |
| GeographicPositions.GeographicPosition.Equals | GeoJSON.Net/Geometry/GeographicPosition.cs:196-199 | equal exactly when the arrays have the same length and are pairwise equal under the tolerant comparer |
| GeographicPositions.GeographicPosition.StrictlyEquals | GeoJSON.Net/Geometry/GeographicPosition.cs:201-204 | exact elementwise equality of the arrays holds exactly when the positions are identical values |
| GeographicPositions.StrictImpliesTolerant | GeoJSON.Net/Geometry/GeographicPosition.cs:196-204 | for a reflexive comparer, strictly equal positions are tolerantly equal |
| GeographicPositions.DimensionsMustAgree | GeoJSON.Net/Geometry/GeographicPosition.cs:196-204 | a 2D and a 3D position are never equal, under either equality |
| GeographicPositions.ObjectEquals | GeoJSON.Net/Geometry/GeographicPosition.cs:124-137 | false for null and for another runtime type, true for the same reference, otherwise the tolerant typed equality |
| GeographicPositions.EqualsOperator | GeoJSON.Net/Geometry/GeographicPosition.cs:158-161 | the same reference or both null is equal, exactly one null is unequal, a right operand of another runtime type is unequal, two positions compare by the typed equality |
| GeographicPositions.NotEqualsOperator | GeoJSON.Net/Geometry/GeographicPosition.cs:171-174 | the exact opposite of `==` in each of those cases |
| PositionArrays.IsClosed | GeoJSON.Net/Geometry/PositionArrayHelpers.cs:47-50 | throws exactly on an empty list; otherwise true exactly when the first position is identical to the last |
| PositionArrays.LinearRingMeaning | GeoJSON.Net/Geometry/PositionArrayHelpers.cs:59-62 | a linear ring is four or more positions whose first is identical to its last, and the test never throws |
| PositionArrays.PositionListEquals | GeoJSON.Net/Geometry/PositionArrayHelpers.cs:25-28 | same length and pairwise tolerant-equal positions |
| PositionArrays.PositionListListEquals | GeoJSON.Net/Geometry/PositionArrayHelpers.cs:9-12 | same number of lists and each pair equal under the list comparer |
| PositionArrays.PositionListListEqualsMeaning | GeoJSON.Net/Geometry/PositionArrayHelpers.cs:9-28 | the nested comparer holds exactly when the shapes agree and all corresponding positions are tolerant-equal |
| PositionArrays.PositionListHash | GeoJSON.Net/Geometry/PositionArrayHelpers.cs:30-36 | the empty list hashes to 19, and each further position multiplies the hash so far by 31 and adds its hash, modulo 2^32 |
| PositionArrays.PositionListListHash | GeoJSON.Net/Geometry/PositionArrayHelpers.cs:14-20 | the same fold from 19, over the inner lists' hashes |
| PositionArrays.PositionListHashAppend | GeoJSON.Net/Geometry/PositionArrayHelpers.cs:30-36 | the hash of a concatenation continues the fold from the hash of the first part |
| PositionArrays.PositionListHashOrderSensitive | GeoJSON.Net/Geometry/PositionArrayHelpers.cs:14-36 | hashes 1 and 2 give different results in the two orders, under both folds: the hash is not symmetric |
| PositionArrays.PositionListHashSwapCollision | GeoJSON.Net/Geometry/PositionArrayHelpers.cs:30-36 | position hashes 0 and 2^31 give the same list hash in either order, so not every swap changes the hash |
| LineStrings.New | GeoJSON.Net/Geometry/LineString.cs:33-48 | null gives ArgumentNull("coordinates"); fewer than two positions gives ArgumentOutOfRange("coordinates"); otherwise the positions are kept unchanged |
| LineStrings.NewRecoversValid | GeoJSON.Net/Geometry/LineString.cs:33-48 | the constructor accepts a position list exactly when it makes a valid LineString, and gives it back unchanged |
| LineStrings.LineString.IsClosed | GeoJSON.Net/Geometry/LineString.cs:90-93 | closed exactly when the end positions agree in dimension and pairwise under the tolerant comparer |
| LineStrings.LineString.IsLinearRing | GeoJSON.Net/Geometry/LineString.cs:102-105 | a ring exactly when it has four or more positions and is tolerantly closed |
| LineStrings.StrictRingIsTolerantRing | GeoJSON.Net/Geometry/LineString.cs:102-105 | for a reflexive comparer, a strict linear ring is a LineString linear ring |
| LineStrings.LineString.Equals | GeoJSON.Net/Geometry/LineString.cs:117-120 | base equality and same-length, pairwise tolerant-equal coordinates |
| LineStrings.ObjectEquals | GeoJSON.Net/Geometry/LineString.cs:59-77 | false for null and another runtime type, true for the same reference, otherwise the typed equality |
| LineStrings.EqualsOperator | GeoJSON.Net/Geometry/LineString.cs:107-110 | reference-equal or both null is equal, exactly one null is unequal, a right operand of another runtime type is unequal, two instances compare by the typed equality |
| LineStrings.NotEqualsOperator | GeoJSON.Net/Geometry/LineString.cs:112-115 | the exact opposite of `==` |
| Polygons.New | GeoJSON.Net/Geometry/Polygon.cs:39-51 | null gives ArgumentNull("coordinates"); succeeds exactly when every ring is a strict linear ring, else ArgumentException("coordinates"); the rings are kept unchanged and in order |
| Polygons.NewRecoversValid | GeoJSON.Net/Geometry/Polygon.cs:39-51 | the constructor accepts exactly the valid polygons, unchanged |
| Polygons.RingsOf | GeoJSON.Net/Geometry/Polygon.cs:34 | one ring per LineString, its coordinates, in order |
| Polygons.FromLineStrings | GeoJSON.Net/Geometry/Polygon.cs:34-36 | null fails in Select (ArgumentNull("source")); otherwise succeeds exactly when every LineString's coordinates form a strict ring, and keeps them in order |
| Polygons.FromLineStringsRecoversValid | GeoJSON.Net/Geometry/Polygon.cs:34-51 | wrapping a valid polygon's rings in LineStrings and constructing from them gives the polygon back |
| Polygons.TolerantRingRefused | GeoJSON.Net/Geometry/Polygon.cs:45-49 | a LineString whose ends are tolerantly but not strictly equal is a linear ring by its own test, yet refused by Polygon |
| Polygons.Polygon.Equals | GeoJSON.Net/Geometry/Polygon.cs:89-92 | for a non-null argument: base equality and ring lists equal ring by ring under the position-list comparer |
| Polygons.Polygon.EqualsNullable | GeoJSON.Net/Geometry/Polygon.cs:89-92 | a null argument gives false when the base equality is false and throws NullReference when it is true; a non-null argument is compared by the typed equality |
| Polygons.ObjectEquals | GeoJSON.Net/Geometry/Polygon.cs:61-72 | false for null and another runtime type, true for the same reference, otherwise the typed equality |
| Polygons.EqualsOperator | GeoJSON.Net/Geometry/Polygon.cs:79-82 | reference-equal or both null is equal, exactly one null is unequal, a right operand of another runtime type is unequal, two instances compare by the typed equality |
| Polygons.NotEqualsOperator | GeoJSON.Net/Geometry/Polygon.cs:84-87 | the exact opposite of `==` |
| MultiPoints.FromPositions | GeoJSON.Net/Geometry/MultiPoint.cs:32-36 | null fails in ToArray (ArgumentNull("source")); otherwise the positions are kept unchanged, no validation |
| MultiPoints.FromPoints | GeoJSON.Net/Geometry/MultiPoint.cs:27-30 | null fails in Select; otherwise one position per point, each the point's coordinates, in order |
| MultiPoints.MultiPoint.Equals | GeoJSON.Net/Geometry/MultiPoint.cs:75-78 | for a non-null argument: base equality and same-length, pairwise tolerant-equal positions |
| MultiPoints.MultiPoint.EqualsNullable | GeoJSON.Net/Geometry/MultiPoint.cs:75-78 | a null argument gives false when the base equality is false and throws NullReference when it is true; a non-null argument is compared by the typed equality |
| MultiPoints.ObjectEquals | GeoJSON.Net/Geometry/MultiPoint.cs:47-58 | false for null and another runtime type, true for the same reference, otherwise the typed equality |
| MultiPoints.EqualsOperator | GeoJSON.Net/Geometry/MultiPoint.cs:65-68 | reference-equal or both null is equal, exactly one null is unequal, a right operand of another runtime type is unequal, two instances compare by the typed equality |
| MultiPoints.NotEqualsOperator | GeoJSON.Net/Geometry/MultiPoint.cs:70-73 | the exact opposite of `==` |
| MultiLineStrings.FromPositionLists | GeoJSON.Net/Geometry/MultiLineString.cs:32-36 | null fails in Select; otherwise the lists are kept unchanged, with no length check |
| MultiLineStrings.FromLineStrings | GeoJSON.Net/Geometry/MultiLineString.cs:26-30 | null fails in Select; otherwise one list per LineString, its coordinates, in order |
| MultiLineStrings.FromValidLineStrings | GeoJSON.Net/Geometry/MultiLineString.cs:26-36 | built from constructed LineStrings, every line has two or more positions |
| MultiLineStrings.ShortLinesAccepted | GeoJSON.Net/Geometry/MultiLineString.cs:32-36 | lines of zero and one position are accepted here although LineString refuses them |
| MultiLineStrings.MultiLineString.Equals | GeoJSON.Net/Geometry/MultiLineString.cs:82-85 | for a non-null argument: base equality and line lists equal line by line under the position-list comparer |
| MultiLineStrings.MultiLineString.EqualsNullable | GeoJSON.Net/Geometry/MultiLineString.cs:82-85 | a null argument gives false when the base equality is false and throws NullReference when it is true; a non-null argument is compared by the typed equality |
| MultiLineStrings.ObjectEquals | GeoJSON.Net/Geometry/MultiLineString.cs:47-65 | false for null and another runtime type, true for the same reference, otherwise the typed equality |
| MultiLineStrings.EqualsOperator | GeoJSON.Net/Geometry/MultiLineString.cs:72-75 | reference-equal or both null is equal, exactly one null is unequal, a right operand of another runtime type is unequal, two instances compare by the typed equality |
| MultiLineStrings.NotEqualsOperator | GeoJSON.Net/Geometry/MultiLineString.cs:77-80 | the exact opposite of `==` |
| MultiPolygons.Empty | GeoJSON.Net/Geometry/MultiPolygon.cs:22-24 | the parameterless constructor gives no polygons, the same as the constructor given an empty list |
| MultiPolygons.FromCoordinates | GeoJSON.Net/Geometry/MultiPolygon.cs:34-38 | null fails in Select; otherwise the nested lists are kept unchanged, with no ring check |
| MultiPolygons.FromPolygons | GeoJSON.Net/Geometry/MultiPolygon.cs:30-32 | null fails in Select; otherwise one entry per polygon, its rings, in order |
| MultiPolygons.FromValidPolygons | GeoJSON.Net/Geometry/MultiPolygon.cs:30-38 | built from constructed polygons, every ring is a strict linear ring |
| MultiPolygons.UnvalidatedRingAccepted | GeoJSON.Net/Geometry/MultiPolygon.cs:34-38 | a one-position ring is accepted here although Polygon refuses it |
| MultiPolygons.MultiPolygon.Equals | GeoJSON.Net/Geometry/MultiPolygon.cs:83-86 | for a non-null argument: base equality and polygon lists equal polygon by polygon under the nested comparer |
| MultiPolygons.MultiPolygon.EqualsNullable | GeoJSON.Net/Geometry/MultiPolygon.cs:83-86 | a null argument gives false when the base equality is false and throws NullReference when it is true; a non-null argument is compared by the typed equality |
| MultiPolygons.ObjectEquals | GeoJSON.Net/Geometry/MultiPolygon.cs:48-66 | false for null and another runtime type, true for the same reference, otherwise the typed equality |
| MultiPolygons.EqualsOperator | GeoJSON.Net/Geometry/MultiPolygon.cs:73-76 | reference-equal or both null is equal, exactly one null is unequal, a right operand of another runtime type is unequal, two instances compare by the typed equality |
| MultiPolygons.NotEqualsOperator | GeoJSON.Net/Geometry/MultiPolygon.cs:78-81 | the exact opposite of `==` |
| MultiPointsOfPoints.New | src/GeoJSON.Net/Geometry/MultiPoint.cs:23-26 | null becomes an empty point list; any other list is kept |
| MultiPointsOfPoints.Equals | src/GeoJSON.Net/Geometry/MultiPoint.cs:59-66 | false unless the base objects are equal; then a null left or right operand throws NullReference, and otherwise the result is true exactly when the point lists have the same length and pairwise equal points |
| MultiPointsOfPoints.AsMultiPoint | src/GeoJSON.Net/Geometry/MultiPoint.cs:45 | `as MultiPoint` yields the object exactly when it is a MultiPoint (a subclass instance included), and null for null and for an object of an unrelated type |
| MultiPointsOfPoints.ObjectEquals | src/GeoJSON.Net/Geometry/MultiPoint.cs:43-46 | an argument of an unrelated type behaves exactly like null; a MultiPoint, subclass instances included, goes to the two-argument Equals with this instance on the left |
| MultiPointsOfPoints.EqualsOperator | src/GeoJSON.Net/Geometry/MultiPoint.cs:71-82 | the same reference is equal, exactly one null is unequal (also through the recursive `left != null`), and two distinct objects compare by Equals |
| MultiPointsOfPoints.NotEqualsOperator | src/GeoJSON.Net/Geometry/MultiPoint.cs:87-90 | the exact opposite of `==` in each of those cases |
| MultiPointsOfPoints.GetHashCode | src/GeoJSON.Net/Geometry/MultiPoint.cs:95-103 | the loop computes the left fold of `(h * 397) ^ itemHash` from the base hash over the points in order; no points gives the base hash |
| MultiPointsOfPoints.GetHashCodeOf | src/GeoJSON.Net/Geometry/MultiPoint.cs:108-111 | a null argument throws NullReference; otherwise the argument's own hash |
| MultiPointsOfPoints.HashOrderSensitive | src/GeoJSON.Net/Geometry/MultiPoint.cs:95-103 | point hashes 1 and 2 fold to different hashes in the two orders: the hash is not symmetric |
| MultiPointsOfPoints.HashSwapCollision | src/GeoJSON.Net/Geometry/MultiPoint.cs:95-103 | point hashes 511 and 513 fold to the same hash in either order, so not every swap changes the hash |
| GeographicPositionConverter.PositionJson | GeoJSON.Net/Converters/MultiPolygonConverter.cs:78-88 | a position is written as longitude, latitude and, only when present, altitude |
| GeographicPositionConverter.WriteJson | GeoJSON.Net/Converters/GeographicPositionConverter.cs:9-15 | a position writes its stored array, which is exactly its accessor form; any other value writes nothing |
| GeographicPositionConverter.ReadJson | GeoJSON.Net/Converters/GeographicPositionConverter.cs:17-33 | an existing array wins over the JSON; a null array throws NullReference; an array shorter than two, existing or read from all-numeric JSON, throws IndexOutOfRange; a non-array or a non-numeric item is a serialization error; otherwise items 0, 1 and 2 become longitude, latitude and altitude |
| GeographicPositionConverter.ReadIgnoresExtraItems | GeoJSON.Net/Converters/GeographicPositionConverter.cs:19-30 | a JSON array whose items after the third are all numbers reads exactly as its first three items, success or failure |
| GeographicPositionConverter.NonNumericExtraItemFails | GeoJSON.Net/Converters/GeographicPositionConverter.cs:19-20 | a non-numeric item after the third makes the read fail with a serialization error |
| GeographicPositionConverter.ExistingValueIgnoresExtraItems | GeoJSON.Net/Converters/GeographicPositionConverter.cs:19-30 | an existing coordinate array reads exactly as its first three entries |
| GeographicPositionConverter.RoundTrip | GeoJSON.Net/Converters/GeographicPositionConverter.cs:9-33 | reading what was written gives back a strictly equal position |
| MultiPolygonConverter.RingJson | GeoJSON.Net/Converters/MultiPolygonConverter.cs:74-91 | a ring is written as one array holding its positions in order |
| MultiPolygonConverter.RingEntry | GeoJSON.Net/Converters/MultiPolygonConverter.cs:70-91 | an empty ring contributes no entry to its polygon's array, any other ring exactly its own array |
| MultiPolygonConverter.RingEntriesAppend | GeoJSON.Net/Converters/MultiPolygonConverter.cs:65-94 | the ring loop over a concatenation of ring lists writes the entries of the first list, then those of the second |
| MultiPolygonConverter.FilterThenWriteIsRingLoop | GeoJSON.Net/Converters/MultiPolygonConverter.cs:65-94 | filtering out the empty rings and then writing each one gives the same entries as visiting every ring and skipping the empty ones |
| MultiPolygonConverter.PolygonJson | GeoJSON.Net/Converters/MultiPolygonConverter.cs:65-94 | a null ring list is an empty array; otherwise the array is the ring loop, each ring in turn contributing its array and an empty ring nothing |
| MultiPolygonConverter.PolygonJsonAppend | GeoJSON.Net/Converters/MultiPolygonConverter.cs:65-94 | the polygon array of a concatenation of rings is the array of the first part followed by that of the second |
| MultiPolygonConverter.PolygonJsonOneRing | GeoJSON.Net/Converters/MultiPolygonConverter.cs:70-91 | a one-ring polygon is written as that ring's array when the ring is non-empty and as an empty array otherwise |
| MultiPolygonConverter.ValidPolygonWrittenWhole | GeoJSON.Net/Converters/MultiPolygonConverter.cs:67-71 | no ring of a constructed polygon is skipped |
| MultiPolygonConverter.EmptyRingSkipped | GeoJSON.Net/Converters/MultiPolygonConverter.cs:65-94 | inserting an empty ring anywhere among a polygon's rings leaves its array unchanged |
| MultiPolygonConverter.WriteJson | GeoJSON.Net/Converters/MultiPolygonConverter.cs:57-99 | a list of polygons writes one array entry per polygon in order; any other value writes nothing |
| MultiPolygonConverter.ItemPolygon | GeoJSON.Net/Converters/MultiPolygonConverter.cs:41-46 | an item fails with the polygon reader's own exception, or else gives what the Polygon constructor taking LineStrings gives for the lines read |
| MultiPolygonConverter.ReadPolygons | GeoJSON.Net/Converters/MultiPolygonConverter.cs:41-46 | succeeds exactly when every item reads as LineStrings that form a valid Polygon, then one valid polygon per item, in order; a failure is the exception of the first item that fails, every earlier item having succeeded |
| MultiPolygonConverter.ReadJson | GeoJSON.Net/Converters/MultiPolygonConverter.cs:37-49 | JSON null fails in Select (ArgumentNull("source")), a number fails to read as an array, an array is read item by item |
| MultiPolygonConverter.RoundTrip | GeoJSON.Net/Converters/MultiPolygonConverter.cs:37-99 | constructed polygons written and read back come back unchanged, when the polygon reader inverts the ring writer |
| Features.New | GeoJSON.Net/Feature/Feature.cs:71-76 | geometry, properties and identifier are stored as given |
| Features.NewWithDictionary | GeoJSON.Net/Feature/Feature.cs:111-114 | a null dictionary becomes an empty one; geometry and identifier are passed on |
| Features.NullDictionaryIsEmpty | GeoJSON.Net/Feature/Feature.cs:111-114 | a null and an empty dictionary make the same feature |
| Features.PublicProperties | GeoJSON.Net/Feature/Feature.cs:35-37 | a declared property without a getter throws NullReference, exactly then; otherwise the keys are exactly the names of the declared properties with a public getter, each mapped to its value |
| Features.Generic | GeoJSON.Net/Feature/Feature.cs:30-39 | a null properties object gives an empty dictionary; a declared property without a getter throws NullReference, exactly then; otherwise exactly the public properties by name; geometry and identifier are passed on |
| Features.GenericIsDictionaryFeature | GeoJSON.Net/Feature/Feature.cs:30-39 | when the harvest succeeds, Generic builds the feature the dictionary constructor builds from the harvested properties |
| Features.NoPublicPropertiesIsEmpty | GeoJSON.Net/Feature/Feature.cs:33-37 | an object whose properties all have non-public getters gives the same feature as a null one |
| Features.Create | GeoJSON.Net/Feature/Feature.cs:41-45 | the feature carries the geometry and properties and no identifier |
| Features.CreateIgnoresId | GeoJSON.Net/Feature/Feature.cs:41-45 | the identifier argument never reaches the feature, so Create differs from the constructor whenever one is given |
| FeatureCollections.New | GeoJSON.Net/Feature/FeatureCollection.cs:33-36 | null gives ArgumentNull("features"); otherwise the same features in the same order |
| FeatureCollections.Default | GeoJSON.Net/Feature/FeatureCollection.cs:25-27 | the parameterless constructor gives an empty collection, the same as the constructor given an empty list |
| FeatureCollections.NewFromOwnFeatures | GeoJSON.Net/Feature/FeatureCollection.cs:33-36 | every collection is rebuilt exactly from its own features |

## Left out

- Floating point: doubles are reals, so NaN, infinities and rounding in `double.TryParse` and in the comparer are not modelled. `DoubleTenDecimalPlaceComparer` is not part of this model and is the parameter `near`. Some lemmas ask only that it be reflexive.
- `GetHashCode` of `GeographicPosition`, `LineString`, `Polygon`, the old `MultiPoint`, `MultiLineString` and `MultiPolygon`: each returns the reference-identity hash of its array. It has no value-level meaning to state.
- `ToString` of `GeographicPosition` is left out: it is string formatting.
- The parameterless `[JsonConstructor]` of `LineString` is left out. It leaves the coordinates null and is only used by the deserializer.
- `Type` of every geometry, of `Feature` and of `FeatureCollection` is left out: each is a constant.
- Null elements inside collections are not modelled: the model's lists cannot hold null. In the source, such an element behaves in one of three ways:
  - A null ring or line passed to the raw constructors of `Polygon`, `MultiLineString` or `MultiPolygon`, or a null polygon passed to the raw `MultiPolygon` constructor, reaches `ToArray` or `Select` as a null source. That raises ArgumentNull("source") (Polygon.cs:41, MultiLineString.cs:35, MultiPolygon.cs:37).
  - A null position in `LineString` or the old `MultiPoint` is stored without any exception (LineString.cs:39-47, MultiPoint.cs:35). It fails only later, if a comparison dereferences it.
  - A null `LineString`, `Point` or `Polygon` passed to the typed constructors raises NullReference at its `Coordinates`.
- GeographicPositions.GeographicPosition.Equals: a null argument is not modelled. The source dereferences it with a NullReference. The model covers only the calls it receives from `Equals(object)` and `==`, which never pass null.
- The operators `==` and `!=` with a left operand of another runtime type are not modelled. Such an object would run its own override, which is not part of this model.
- `PolygonConverter` and `GeometryConverter` are not part of this model. `MultiPolygonConverter.ReadJson` takes the polygon reader as a parameter.
- MultiPolygonConverter.ReadJson: a polygon reader result that is not a `List<LineString>` is modelled as `None`. Newtonsoft's exception types are collapsed into one `JsonSerialization` failure.
- GeographicPositionConverter.ReadJson: every error `Deserialize<double[]>` raises, whatever its Newtonsoft exception type, is the one `JsonSerialization` failure.
- GeographicPositionConverter.ReadJson: an `existingValue` that is not a `double[]` is not modelled. That is an InvalidCast in the source.
- The JSON value model holds only null, numbers and arrays. Strings, objects and booleans are outside what the converters read here.
- The reader and writer plumbing of Newtonsoft (`JsonReader`, `JsonWriter`, `CanConvert`) is left out. Writing is modelled as building a JSON value.
- `Feature.Generic` reflection: the object's declared properties come in as a list of name, getter (missing, public or not public) and value. An exception thrown by a getter itself is not modelled. Properties of the same type have distinct names, so `ToDictionary` never meets a duplicate key. Indexers are not modelled.
- `FeatureCollection` serialization, CRS objects, bounding boxes and `GeoJSONObject` itself are not part of this model.
- Mutation through the settable `Feature.Geometry` and `Feature.Id` is not modelled. Features are values here.
- MultiPointsOfPoints.New: the source keeps the caller's own `List<Point>` without copying it, and `Coordinates` hands that list out. A later change to the list, by the caller or through the getter, changes the MultiPoint's `Equals` and `GetHashCode`. The model's point list is an immutable value, so this sharing is not modelled.
- FeatureCollections.New: `Features` is a mutable `IList` after construction. Features added to it or removed from it later are not modelled: the collection's features are an immutable value.
- PositionArrays.PositionListHashOrderSensitive: states two examples, one swap that changes the hash and one that does not (`PositionArrays.PositionListHashSwapCollision`). The general law is not proved: swapping adjacent hashes `a` and `b` changes the 31-fold exactly when `30 * (a - b)` is not 0 modulo 2^32. The 32-bit multiplications make that proof too costly for the solver.
- MultiPointsOfPoints.HashOrderSensitive: states two examples for the 397-xor fold, one swap that changes the hash and one that does not (`MultiPointsOfPoints.HashSwapCollision`). No general condition is stated.
- MultiPointsOfPoints.EqualsOperator: operands are null or MultiPoint instances, subclass instances included. An operand that is not a MultiPoint cannot occur, because of C#'s static typing. A subclass's own overrides of `Equals(object)` or `GetHashCode` are not part of this model. The operators do not call them; only `baseEqual` could reach them.

=== FILE: feature_collection.dfy ===
/** FeatureCollection: an ordered list of features (section 3.3 of RFC 7946). */
module FeatureCollections {
  import opened Wrappers
  import opened Runtime
  import opened Features

  datatype FeatureCollection<T> = FeatureCollection(features: seq<T>)

  /** The constructor `FeatureCollection(IReadOnlyList<T> features)`: null is
      refused; otherwise the collection holds a copy of the list, same
      features in the same order. */
  function New<T>(features: Option<seq<T>>): (r: Result<FeatureCollection<T>, Exception>)
    ensures r.Success? <==> features.Some?
    ensures features.None? ==> r.error == ArgumentNull("features")
    ensures r.Success? ==> |r.value.features| == |features.value|
                           && forall i :: 0 <= i < |features.value| ==> r.value.features[i] == features.value[i]
  {
    if features.None? then Failure(ArgumentNull("features"))
    else Success(FeatureCollection.FeatureCollection(features.value))
  }

  /** The parameterless constructor, which passes a new empty list on. */
  function Default<T>(): (c: FeatureCollection<T>)
    ensures |c.features| == 0
    ensures New<T>(Some([])) == Success(c)
  {
    FeatureCollection.FeatureCollection([])
  }

  /** Every collection the constructor builds can be rebuilt from its own
      features. */
  lemma NewFromOwnFeatures<T>(c: FeatureCollection<T>)
    ensures New(Some(c.features)) == Success(c)
  {
  }
}

=== FILE: features.dfy ===
/** Feature: a geometry with properties and an optional identifier (section 3.2
    of RFC 7946). The geometry and the properties are carried as given; the
    class never looks inside them. */
module Features {
  import opened Wrappers
  import opened Runtime

  /** `Feature<TGeometry, TProp>`: `id` is `None` when the identifier is null. */
  datatype Feature<G, P> = Feature(geometry: G, properties: P, id: Option<string>)

  /** The constructor `Feature(TGeometry, TProp, string id = null)`: every
      argument is stored as given, a null `properties` included. */
  function New<G, P>(geometry: G, properties: P, id: Option<string>): (f: Feature<G, P>)
    ensures f.geometry == geometry && f.properties == properties && f.id == id
  {
    Feature.Feature(geometry, properties, id)
  }

  /** The constructor of `Feature<TGeo>`, whose properties are a dictionary: a
      null dictionary is replaced by an empty one, so the properties of such a
      feature are never null. */
  function NewWithDictionary<G, V>(geometry: G, properties: Option<map<string, V>>, id: Option<string>)
    : (f: Feature<G, map<string, V>>)
    ensures f.geometry == geometry && f.id == id
    ensures properties.None? ==> f.properties == map[]
    ensures properties.Some? ==> f.properties == properties.value
  {
    New(geometry, if properties.Some? then properties.value else map[], id)
  }

  /** A null dictionary and an empty one make the same feature. */
  lemma NullDictionaryIsEmpty<G, V>(geometry: G, id: Option<string>)
    ensures NewWithDictionary<G, V>(geometry, None, id) == NewWithDictionary(geometry, Some(map[]), id)
  {
  }

  /** A property declared on the runtime type of the `properties` object, as
      reflection reports it: its name, its getter (`None` for a property
      without one, `Some(true)` for a public getter, `Some(false)` for any
      other), and the value the getter returns. */
  datatype DeclaredProperty<V> = DeclaredProperty(name: string, getter: Option<bool>, value: V)

  /** Properties declared on one type have distinct names. */
  predicate DistinctNames<V>(declared: seq<DeclaredProperty<V>>)
  {
    forall i, j :: 0 <= i < j < |declared| ==> declared[i].name != declared[j].name
  }

  /** A property the filter keeps: its getter exists and is public. */
  predicate PublicGetter<V>(p: DeclaredProperty<V>)
  {
    p.getter == Some(true)
  }

  /** The dictionary `Generic` harvests: every declared property with a
      public getter, by name, with its value; nothing else. The filter reads
      `GetMethod.IsPublic` of every property, so one without a getter throws. */
  function PublicProperties<V>(declared: seq<DeclaredProperty<V>>): (r: Result<map<string, V>, Exception>)
    requires DistinctNames(declared)
    ensures r.Failure? <==> exists i :: 0 <= i < |declared| && declared[i].getter.None?
    ensures r.Failure? ==> r.error == NullReference
    ensures r.Success? ==> forall k :: k in r.value <==>
              exists i :: 0 <= i < |declared| && PublicGetter(declared[i]) && declared[i].name == k
    ensures r.Success? ==> forall i :: 0 <= i < |declared| && PublicGetter(declared[i]) ==>
              declared[i].name in r.value && r.value[declared[i].name] == declared[i].value
  {
    if |declared| == 0 then Success(map[])
    else
      var first := declared[0];
      assert forall i :: 1 <= i < |declared| ==> declared[i] == declared[1..][i - 1];
      if first.getter.None? then Failure(NullReference)
      else
        var rest := PublicProperties(declared[1..]);
        if rest.Failure? then Failure(rest.error)
        else if PublicGetter(first) then Success(rest.value[first.name := first.value])
        else Success(rest.value)
  }

  /** `Feature.Generic(geometry, properties = null, id = null)`: the
      properties of a null object are an empty dictionary; otherwise they are
      harvested from the object's declared public properties, and a declared
      property without a getter throws. The identifier is passed on. */
  function Generic<G, V>(geometry: G, properties: Option<seq<DeclaredProperty<V>>>, id: Option<string>)
    : (r: Result<Feature<G, map<string, V>>, Exception>)
    requires properties.Some? ==> DistinctNames(properties.value)
    ensures r.Failure? <==> properties.Some? && exists i :: 0 <= i < |properties.value| && properties.value[i].getter.None?
    ensures r.Failure? ==> r.error == NullReference
    ensures r.Success? ==> r.value.geometry == geometry && r.value.id == id
    ensures properties.None? ==> r.Success? && r.value.properties == map[]
    ensures properties.Some? && r.Success? ==> forall k :: k in r.value.properties <==>
              exists i :: 0 <= i < |properties.value| && PublicGetter(properties.value[i]) && properties.value[i].name == k
    ensures properties.Some? && r.Success? ==> forall i :: 0 <= i < |properties.value| && PublicGetter(properties.value[i]) ==>
              r.value.properties[properties.value[i].name] == properties.value[i].value
  {
    var props :- if properties.None? then Success(map[]) else PublicProperties(properties.value);
    Success(NewWithDictionary(geometry, Some(props), id))
  }

  /** `Generic` builds the feature the dictionary constructor would build from
      the harvested properties. */
  lemma GenericIsDictionaryFeature<G, V>(geometry: G, properties: Option<seq<DeclaredProperty<V>>>, id: Option<string>)
    requires properties.Some? ==> DistinctNames(properties.value)
    ensures properties.None? ==> Generic(geometry, properties, id) == Success(NewWithDictionary(geometry, None, id))
    ensures properties.Some? && PublicProperties(properties.value).Success? ==>
              Generic(geometry, properties, id)
                == Success(NewWithDictionary(geometry, Some(PublicProperties(properties.value).value), id))
  {
  }

  /** An object whose declared properties all have getters, none of them
      public, yields an empty dictionary, just as a null one does. */
  lemma {:induction false} NoPublicPropertiesIsEmpty<G, V>(geometry: G, declared: seq<DeclaredProperty<V>>, id: Option<string>)
    requires DistinctNames(declared)
    requires forall i :: 0 <= i < |declared| ==> declared[i].getter == Some(false)
    ensures Generic(geometry, Some(declared), id) == Generic(geometry, None, id)
  {
    var d := PublicProperties(declared);
    assert d.Success?;
    assert forall k :: k !in d.value;
    assert d.value == map[];
  }

  /** `Feature.Create(geometry, props, id = null)`: builds the feature from
      the geometry and properties; the identifier argument is not used. */
  function Create<G, P>(geometry: G, properties: P, id: Option<string>): (f: Feature<G, P>)
    ensures f.geometry == geometry && f.properties == properties
    ensures f.id.None?
  {
    New(geometry, properties, None)
  }

  /** Whatever identifier `Create` is given, the feature comes out the same,
      and differs from the constructor's whenever an identifier was given. */
  lemma CreateIgnoresId<G, P>(geometry: G, properties: P, id: Option<string>)
    ensures Create(geometry, properties, id) == New(geometry, properties, None)
    ensures id.Some? ==> Create(geometry, properties, id) != New(geometry, properties, id)
  {
  }
}

=== FILE: json.dfy ===
/** A JSON value as far as coordinate arrays need one, and Newtonsoft's
    reading of such a value as a `double[]`. */
module JsonValues {
  import opened Wrappers
  import opened Runtime

  datatype Json = JNull | JNum(num: real) | JArr(items: seq<Json>)

  /** The numbers of an array whose items are all numbers; `None` otherwise. */
  function Numbers(items: seq<Json>): (r: Option<seq<real>>)
    ensures r.Some? <==> forall i :: 0 <= i < |items| ==> items[i].JNum?
    ensures r.Some? ==> |r.value| == |items| && forall i :: 0 <= i < |items| ==> r.value[i] == items[i].num
  {
    if |items| == 0 then Some([])
    else if !items[0].JNum? then None
    else
      var rest := Numbers(items[1..]);
      assert rest.None? ==> !forall i :: 0 <= i < |items| ==> items[i].JNum? by {
        if rest.None? {
          var j :| 0 <= j < |items[1..]| && !items[1..][j].JNum?;
          assert !items[j + 1].JNum?;
        }
      }
      if rest.None? then None else Some([items[0].num] + rest.value)
  }

  /** A number array as JSON. */
  function NumberArray(values: seq<real>): (j: Json)
    ensures j.JArr? && |j.items| == |values|
    ensures forall i :: 0 <= i < |values| ==> j.items[i] == JNum(values[i])
  {
    JArr(seq(|values|, i requires 0 <= i < |values| => JNum(values[i])))
  }

  /** Reading a number array back gives the numbers written. */
  lemma NumbersOfNumberArray(values: seq<real>)
    ensures Numbers(NumberArray(values).items) == Some(values)
  {
    var nums := Numbers(NumberArray(values).items);
    assert nums.Some?;
    assert nums.value == values;
  }

  /** `serializer.Deserialize<double[]>(reader)`: JSON null reads as a null
      array (`None`), an array of numbers as those numbers, anything else
      throws. */
  function DeserializeDoubles(j: Json): (r: Result<Option<seq<real>>, Exception>)
    ensures j.JNull? ==> r == Success(None)
    ensures j.JNum? ==> r == Failure(JsonSerialization)
    ensures j.JArr? ==> (r.Success? <==> forall i :: 0 <= i < |j.items| ==> j.items[i].JNum?)
    ensures r.Failure? ==> r.error == JsonSerialization
    ensures j.JArr? && r.Success? ==> r.value == Numbers(j.items)
  {
    match j
    case JNull => Success(None)
    case JNum(_) => Failure(JsonSerialization)
    case JArr(items) =>
      var nums := Numbers(items);
      if nums.None? then Failure(JsonSerialization) else Success(nums)
  }
}

=== FILE: line_string.dfy ===
/** LineString: two or more positions (section 3.1.4 of RFC 7946). */
module LineStrings {
  import opened Wrappers
  import opened Runtime
  import opened GeographicPositions
  import PositionArrays

  datatype LineString = LineString(coordinates: seq<GeographicPosition>) {

    /** What the validating constructor guarantees. */
    predicate Valid()
    {
      |coordinates| >= 2
    }

    /** `IsClosed`: the first position equals the last under the TOLERANT
        `Equals`, unlike the strict test Polygon validation uses. Always
        defined, since a constructed LineString has two or more positions. */
    function IsClosed(near: DoubleComparer): (r: bool)
      requires Valid()
      ensures r <==> var first, last := coordinates[0], coordinates[|coordinates| - 1];
                     |first.coordinates| == |last.coordinates|
                     && forall i :: 0 <= i < |first.coordinates| ==> near(first.coordinates[i], last.coordinates[i])
    {
      coordinates[0].Equals(coordinates[|coordinates| - 1], near)
    }

    /** `IsLinearRing`: four or more positions, and closed in the tolerant sense. */
    function IsLinearRing(near: DoubleComparer): (r: bool)
      requires Valid()
      ensures r ==> |coordinates| >= 4
      ensures r ==> coordinates[0].Equals(coordinates[|coordinates| - 1], near)
      ensures |coordinates| >= 4 && IsClosed(near) ==> r
    {
      |coordinates| >= 4 && IsClosed(near)
    }

    /** The typed `Equals`: base equality, and the coordinates have the same
        length and are pairwise tolerant-equal. */
    function Equals(other: LineString, baseEqual: bool, near: DoubleComparer): (r: bool)
      ensures r <==> baseEqual && |coordinates| == |other.coordinates|
                     && forall i :: 0 <= i < |coordinates| ==> coordinates[i].Equals(other.coordinates[i], near)
    {
      baseEqual && PositionArrays.PositionListEquals(coordinates, other.coordinates, near)
    }
  }

  /** The constructor `LineString(IEnumerable<GeographicPosition>)`: null is
      refused, fewer than two positions are refused, and otherwise the
      positions are kept as given. */
  function New(coordinates: Option<seq<GeographicPosition>>): (r: Result<LineString, Exception>)
    ensures coordinates.None? ==> r == Failure(ArgumentNull("coordinates"))
    ensures coordinates.Some? && |coordinates.value| < 2 ==> r == Failure(ArgumentOutOfRange("coordinates", TooFewPositions))
    ensures r.Success? <==> coordinates.Some? && |coordinates.value| >= 2
    ensures r.Success? ==> r.value.Valid() && r.value.coordinates == coordinates.value
  {
    if coordinates.None? then Failure(ArgumentNull("coordinates"))
    else if |coordinates.value| < 2 then Failure(ArgumentOutOfRange("coordinates", TooFewPositions))
    else Success(LineString(coordinates.value))
  }

  /** The constructor accepts exactly the valid line strings, unchanged. */
  lemma NewRecoversValid(l: LineString)
    ensures l.Valid() <==> New(Some(l.coordinates)) == Success(l)
  {
  }

  /** A strictly closed line string is also tolerantly closed (the comparer is
      reflexive), so every ring Polygon accepts is a LineString linear ring. */
  lemma StrictRingIsTolerantRing(l: LineString, near: DoubleComparer)
    requires l.Valid()
    requires forall x :: near(x, x)
    ensures PositionArrays.IsLinearRing(l.coordinates) ==> l.IsLinearRing(near)
  {
    var c := l.coordinates;
    StrictImpliesTolerant(c[0], c[|c| - 1], near);
  }

  /** `Equals(object)`: false for null and for another runtime type, true for
      the same reference, otherwise the typed `Equals`. */
  function ObjectEquals(self: Ref<LineString>, obj: Ref<LineString>, baseEqual: bool, near: DoubleComparer): (r: bool)
    requires self.Obj?
    ensures obj.Null? ==> !r
    ensures ReferenceEquals(self, obj) ==> r
    ensures obj.Foreign? && obj.id != self.id ==> !r
    ensures obj.Obj? && obj.id != self.id ==> (r <==> self.value.Equals(obj.value, baseEqual, near))
  {
    OverrideEquals(self, obj, (a: LineString, b: LineString) => a.Equals(b, baseEqual, near))
  }

  /** `operator ==`, which is `object.Equals(left, right)`. */
  function EqualsOperator(left: Ref<LineString>, right: Ref<LineString>, baseEqual: bool, near: DoubleComparer): (r: bool)
    requires !left.Foreign?
    ensures ReferenceEquals(left, right) ==> r
    ensures left.Null? != right.Null? ==> !r
    ensures left.Obj? && right.Foreign? && left.id != right.id ==> !r
    ensures left.Obj? && right.Obj? && left.id != right.id ==> (r <==> left.value.Equals(right.value, baseEqual, near))
  {
    StaticEquals(left, right, (a: LineString, b: LineString) => a.Equals(b, baseEqual, near))
  }

  /** `operator !=`: the negation of `==`. */
  function NotEqualsOperator(left: Ref<LineString>, right: Ref<LineString>, baseEqual: bool, near: DoubleComparer): (r: bool)
    requires !left.Foreign?
    ensures ReferenceEquals(left, right) ==> !r
    ensures left.Null? != right.Null? ==> r
    ensures left.Obj? && right.Foreign? && left.id != right.id ==> r
    ensures left.Obj? && right.Obj? && left.id != right.id ==> (r <==> !left.value.Equals(right.value, baseEqual, near))
  {
    !EqualsOperator(left, right, baseEqual, near)
  }
}

=== FILE: linq.dfy ===
/** The LINQ operators (System.Linq.Enumerable) that the geometry classes are
    written with, on finite sequences. Each is defined by recursion in the order
    LINQ enumerates, and its contract states what it computes elementwise. */
module Linq {

  /** `Select`: the image of every element, in order. */
  function Select<A, B>(s: seq<A>, f: A -> B): (r: seq<B>)
    ensures |r| == |s|
    ensures forall i :: 0 <= i < |s| ==> r[i] == f(s[i])
  {
    if |s| == 0 then [] else [f(s[0])] + Select(s[1..], f)
  }

  /** `SequenceEqual` with an element comparer: both sequences have the same
      length and are pairwise equal under `eq`. */
  function SequenceEqual<T>(a: seq<T>, b: seq<T>, eq: (T, T) -> bool): (r: bool)
    ensures r <==> |a| == |b| && forall i :: 0 <= i < |a| ==> eq(a[i], b[i])
  {
    if |a| == 0 || |b| == 0 then |a| == |b|
    else if !eq(a[0], b[0]) then false
    else
      var rest := SequenceEqual(a[1..], b[1..], eq);
      assert rest ==> forall i :: 1 <= i < |a| ==> eq(a[i], b[i]) by {
        if rest {
          forall i | 1 <= i < |a|
            ensures eq(a[i], b[i])
          {
            assert a[1..][i - 1] == a[i] && b[1..][i - 1] == b[i];
          }
        }
      }
      rest
  }

  /** `Any` with a predicate: some element satisfies `p`. */
  function Any<T>(s: seq<T>, p: T -> bool): (r: bool)
    ensures r <==> exists i :: 0 <= i < |s| && p(s[i])
  {
    if |s| == 0 then false
    else if p(s[0]) then true
    else
      var rest := Any(s[1..], p);
      assert rest ==> exists i :: 1 <= i < |s| && p(s[i]) by {
        if rest {
          var j :| 0 <= j < |s[1..]| && p(s[1..][j]);
          assert p(s[j + 1]);
        }
      }
      rest
  }

  /** `Where`: the elements that satisfy `p`, in their original order. */
  function Where<T>(s: seq<T>, p: T -> bool): (r: seq<T>)
    ensures |r| <= |s|
    ensures forall i :: 0 <= i < |r| ==> p(r[i])
    ensures forall x :: x in r ==> x in s
    ensures (forall i :: 0 <= i < |s| ==> p(s[i])) ==> r == s
  {
    if |s| == 0 then []
    else
      var rest := Where(s[1..], p);
      assert (forall i :: 0 <= i < |s| ==> p(s[i])) ==> rest == s[1..] by {
        if forall i :: 0 <= i < |s| ==> p(s[i]) {
          assert forall i :: 0 <= i < |s[1..]| ==> p(s[1..][i]) by {
            forall i | 0 <= i < |s[1..]|
              ensures p(s[1..][i])
            {
              assert s[1..][i] == s[i + 1];
            }
          }
        }
      }
      if p(s[0]) then [s[0]] + rest else rest
  }

  /** `Select` distributes over concatenation. */
  lemma {:induction false} SelectAppend<A, B>(a: seq<A>, b: seq<A>, f: A -> B)
    ensures Select(a + b, f) == Select(a, f) + Select(b, f)
  {
    assert forall i :: 0 <= i < |a| ==> (a + b)[i] == a[i];
    assert forall i :: |a| <= i < |a| + |b| ==> (a + b)[i] == b[i - |a|];
  }

  /** `Where` on one element keeps it exactly when it satisfies `p`. Together
      with `WhereAppend` this determines `Where` on every sequence: each
      element satisfying `p` is kept, in its original order, and no other. */
  lemma WhereSingleton<T>(x: T, p: T -> bool)
    ensures Where([x], p) == if p(x) then [x] else []
  {
    assert [x][1..] == [];
  }

  /** `Where` distributes over concatenation. */
  lemma {:induction false} WhereAppend<T>(a: seq<T>, b: seq<T>, p: T -> bool)
    ensures Where(a + b, p) == Where(a, p) + Where(b, p)
    decreases |a|
  {
    if |a| == 0 {
      assert a + b == b;
    } else {
      assert (a + b)[0] == a[0];
      assert (a + b)[1..] == a[1..] + b;
      WhereAppend(a[1..], b, p);
    }
  }

  /** `Aggregate` with a seed: a left fold, applying `f` to the elements in order. */
  function Aggregate<A, T>(seed: A, s: seq<T>, f: (A, T) -> A): A
  {
    if |s| == 0 then seed else Aggregate(f(seed, s[0]), s[1..], f)
  }

  /** Folding a concatenation folds the second part from the result of the first. */
  lemma {:induction false} AggregateAppend<A, T>(seed: A, a: seq<T>, b: seq<T>, f: (A, T) -> A)
    ensures Aggregate(seed, a + b, f) == Aggregate(Aggregate(seed, a, f), b, f)
    decreases |a|
  {
    if |a| == 0 {
      assert a + b == b;
    } else {
      assert (a + b)[1..] == a[1..] + b;
      AggregateAppend(f(seed, a[0]), a[1..], b, f);
    }
  }

  /** One more element is one more step after the fold of the prefix. */
  lemma AggregateSnoc<A, T>(seed: A, s: seq<T>, x: T, f: (A, T) -> A)
    ensures Aggregate(seed, s + [x], f) == f(Aggregate(seed, s, f), x)
  {
    AggregateAppend(seed, s, [x], f);
    assert [x][1..] == [];
  }
}

=== FILE: multi_line_string.dfy ===
/** MultiLineString: a list of position lists (section 3.1.5 of RFC 7946).
    The position-list constructor does not re-check the two-position minimum
    of a LineString. */
module MultiLineStrings {
  import opened Wrappers
  import opened Runtime
  import opened GeographicPositions
  import PositionArrays
  import opened LineStrings
  import Linq

  datatype MultiLineString = MultiLineString(coordinates: seq<seq<GeographicPosition>>) {

    /** The typed `Equals`: base equality, and the lines are pairwise equal
        under `PositonArrayComparer`. */
    function Equals(other: MultiLineString, baseEqual: bool, near: DoubleComparer): (r: bool)
      ensures r <==> baseEqual && |coordinates| == |other.coordinates|
                     && forall i :: 0 <= i < |coordinates| ==>
                          PositionArrays.PositionListEquals(coordinates[i], other.coordinates[i], near)
    {
      baseEqual && PositionArrays.PositionListListEquals(coordinates, other.coordinates, near)
    }

    /** The public overload `Equals(MultiLineString other)`, which also accepts null:
        `base.Equals(null)` decides first, and when it lets null through,
        `other.Coordinates` is dereferenced. A non-null `other` is compared
        as by the typed `Equals`. */
    function EqualsNullable(other: Option<MultiLineString>, baseEqual: bool, near: DoubleComparer): (r: Result<bool, Exception>)
      ensures other.None? ==> r == (if baseEqual then Failure(NullReference) else Success(false))
      ensures other.Some? ==> r.Success? && (r.value <==> Equals(other.value, baseEqual, near))
    {
      if !baseEqual then Success(false)
      else if other.None? then Failure(NullReference)
      else Success(Equals(other.value, baseEqual, near))
    }
  }

  /** The constructor `MultiLineString(IEnumerable<IEnumerable<GeographicPosition>>)`:
      the lists are copied as given, whatever their length. A null list
      fails in `Select`, whose parameter is named `source`. */
  function FromPositionLists(coordinates: Option<seq<seq<GeographicPosition>>>): (r: Result<MultiLineString, Exception>)
    ensures r.Failure? <==> coordinates.None?
    ensures coordinates.None? ==> r.error == ArgumentNull("source")
    ensures r.Success? ==> r.value.coordinates == coordinates.value
  {
    if coordinates.None? then Failure(ArgumentNull("source"))
    else Success(MultiLineString(coordinates.value))
  }

  /** The constructor `MultiLineString(IEnumerable<LineString>)`: each
      LineString's coordinates, in order. */
  function FromLineStrings(lines: Option<seq<LineString>>): (r: Result<MultiLineString, Exception>)
    ensures r.Failure? <==> lines.None?
    ensures lines.None? ==> r.error == ArgumentNull("source")
    ensures r.Success? ==> |r.value.coordinates| == |lines.value|
                           && forall i :: 0 <= i < |lines.value| ==> r.value.coordinates[i] == lines.value[i].coordinates
  {
    if lines.None? then Failure(ArgumentNull("source"))
    else FromPositionLists(Some(Linq.Select(lines.value, (l: LineString) => l.coordinates)))
  }

  /** Built from valid LineStrings, every line has two or more positions. */
  lemma FromValidLineStrings(lines: seq<LineString>)
    requires forall i :: 0 <= i < |lines| ==> lines[i].Valid()
    ensures FromLineStrings(Some(lines)).Success?
    ensures var m := FromLineStrings(Some(lines)).value;
            forall i :: 0 <= i < |m.coordinates| ==> |m.coordinates[i]| >= 2
  {
  }

  /** The position-list path accepts lines that no LineString could hold. */
  lemma ShortLinesAccepted(p: GeographicPosition)
    ensures FromPositionLists(Some([[], [p]])) == Success(MultiLineString([[], [p]]))
    ensures LineStrings.New(Some([])).Failure? && LineStrings.New(Some([p])).Failure?
  {
  }

  /** `Equals(object)`: false for null and for another runtime type, true for
      the same reference, otherwise the typed `Equals`. */
  function ObjectEquals(self: Ref<MultiLineString>, obj: Ref<MultiLineString>, baseEqual: bool, near: DoubleComparer): (r: bool)
    requires self.Obj?
    ensures obj.Null? ==> !r
    ensures ReferenceEquals(self, obj) ==> r
    ensures obj.Foreign? && obj.id != self.id ==> !r
    ensures obj.Obj? && obj.id != self.id ==> (r <==> self.value.Equals(obj.value, baseEqual, near))
  {
    OverrideEquals(self, obj, (a: MultiLineString, b: MultiLineString) => a.Equals(b, baseEqual, near))
  }

  /** `operator ==`, which is `object.Equals(left, right)`. */
  function EqualsOperator(left: Ref<MultiLineString>, right: Ref<MultiLineString>, baseEqual: bool, near: DoubleComparer): (r: bool)
    requires !left.Foreign?
    ensures ReferenceEquals(left, right) ==> r
    ensures left.Null? != right.Null? ==> !r
    ensures left.Obj? && right.Foreign? && left.id != right.id ==> !r
    ensures left.Obj? && right.Obj? && left.id != right.id ==> (r <==> left.value.Equals(right.value, baseEqual, near))
  {
    StaticEquals(left, right, (a: MultiLineString, b: MultiLineString) => a.Equals(b, baseEqual, near))
  }

  /** `operator !=`: the negation of `==`. */
  function NotEqualsOperator(left: Ref<MultiLineString>, right: Ref<MultiLineString>, baseEqual: bool, near: DoubleComparer): (r: bool)
    requires !left.Foreign?
    ensures ReferenceEquals(left, right) ==> !r
    ensures left.Null? != right.Null? ==> r
    ensures left.Obj? && right.Foreign? && left.id != right.id ==> r
    ensures left.Obj? && right.Obj? && left.id != right.id ==> (r <==> !left.value.Equals(right.value, baseEqual, near))
  {
    !EqualsOperator(left, right, baseEqual, near)
  }
}

=== FILE: multi_point.dfy ===
/** MultiPoint (the older class, over positions): a list of positions with no
    shape check of its own (section 3.1.3 of RFC 7946). */
module MultiPoints {
  import opened Wrappers
  import opened Runtime
  import opened GeographicPositions
  import PositionArrays
  import opened Points
  import Linq

  datatype MultiPoint = MultiPoint(coordinates: seq<GeographicPosition>) {

    /** The typed `Equals`: base equality, same length, pairwise tolerant-equal. */
    function Equals(other: MultiPoint, baseEqual: bool, near: DoubleComparer): (r: bool)
      ensures r <==> baseEqual && |coordinates| == |other.coordinates|
                     && forall i :: 0 <= i < |coordinates| ==> coordinates[i].Equals(other.coordinates[i], near)
    {
      baseEqual && PositionArrays.PositionListEquals(coordinates, other.coordinates, near)
    }

    /** The public overload `Equals(MultiPoint other)`, which also accepts null:
        `base.Equals(null)` decides first, and when it lets null through,
        `other.Coordinates` is dereferenced. A non-null `other` is compared
        as by the typed `Equals`. */
    function EqualsNullable(other: Option<MultiPoint>, baseEqual: bool, near: DoubleComparer): (r: Result<bool, Exception>)
      ensures other.None? ==> r == (if baseEqual then Failure(NullReference) else Success(false))
      ensures other.Some? ==> r.Success? && (r.value <==> Equals(other.value, baseEqual, near))
    {
      if !baseEqual then Success(false)
      else if other.None? then Failure(NullReference)
      else Success(Equals(other.value, baseEqual, near))
    }
  }

  /** The constructor `MultiPoint(IEnumerable<GeographicPosition>)`: any
      number of positions, zero included, copied as given. A null list fails
      in `ToArray`, whose parameter is named `source`. */
  function FromPositions(coordinates: Option<seq<GeographicPosition>>): (r: Result<MultiPoint, Exception>)
    ensures r.Failure? <==> coordinates.None?
    ensures coordinates.None? ==> r.error == ArgumentNull("source")
    ensures r.Success? ==> r.value.coordinates == coordinates.value
  {
    if coordinates.None? then Failure(ArgumentNull("source"))
    else Success(MultiPoint(coordinates.value))
  }

  /** The constructor `MultiPoint(IEnumerable<Point>)`: each point's position, in order. */
  function FromPoints(points: Option<seq<Point>>): (r: Result<MultiPoint, Exception>)
    ensures r.Failure? <==> points.None?
    ensures points.None? ==> r.error == ArgumentNull("source")
    ensures r.Success? ==> |r.value.coordinates| == |points.value|
                           && forall i :: 0 <= i < |points.value| ==> r.value.coordinates[i] == points.value[i].coordinates
  {
    if points.None? then Failure(ArgumentNull("source"))
    else FromPositions(Some(Linq.Select(points.value, (p: Point) => p.coordinates)))
  }

  /** `Equals(object)`: false for null and for another runtime type, true for
      the same reference, otherwise the typed `Equals`. */
  function ObjectEquals(self: Ref<MultiPoint>, obj: Ref<MultiPoint>, baseEqual: bool, near: DoubleComparer): (r: bool)
    requires self.Obj?
    ensures obj.Null? ==> !r
    ensures ReferenceEquals(self, obj) ==> r
    ensures obj.Foreign? && obj.id != self.id ==> !r
    ensures obj.Obj? && obj.id != self.id ==> (r <==> self.value.Equals(obj.value, baseEqual, near))
  {
    OverrideEquals(self, obj, (a: MultiPoint, b: MultiPoint) => a.Equals(b, baseEqual, near))
  }

  /** `operator ==`, which is `object.Equals(left, right)`. */
  function EqualsOperator(left: Ref<MultiPoint>, right: Ref<MultiPoint>, baseEqual: bool, near: DoubleComparer): (r: bool)
    requires !left.Foreign?
    ensures ReferenceEquals(left, right) ==> r
    ensures left.Null? != right.Null? ==> !r
    ensures left.Obj? && right.Foreign? && left.id != right.id ==> !r
    ensures left.Obj? && right.Obj? && left.id != right.id ==> (r <==> left.value.Equals(right.value, baseEqual, near))
  {
    StaticEquals(left, right, (a: MultiPoint, b: MultiPoint) => a.Equals(b, baseEqual, near))
  }

  /** `operator !=`: the negation of `==`. */
  function NotEqualsOperator(left: Ref<MultiPoint>, right: Ref<MultiPoint>, baseEqual: bool, near: DoubleComparer): (r: bool)
    requires !left.Foreign?
    ensures ReferenceEquals(left, right) ==> !r
    ensures left.Null? != right.Null? ==> r
    ensures left.Obj? && right.Foreign? && left.id != right.id ==> r
    ensures left.Obj? && right.Obj? && left.id != right.id ==> (r <==> !left.value.Equals(right.value, baseEqual, near))
  {
    !EqualsOperator(left, right, baseEqual, near)
  }
}

=== FILE: multi_point_of_points.dfy ===
/** The newer MultiPoint (src/GeoJSON.Net/Geometry/MultiPoint.cs): a list of
    Points rather than positions, with its own equality operators and a hash
    folded over the points. `Point.Equals` and `Point.GetHashCode` are not part
    of this model and come in as `pointEq` and `pointHash`; `GeoJSONObject`'s
    equality and hash come in as `baseEqual` and `baseHash`. */
module MultiPointsOfPoints {
  import opened Wrappers
  import opened Runtime
  import opened Points
  import Linq

  datatype MultiPoint = MultiPoint(coordinates: seq<Point>)

  /** The constructor `MultiPoint(List<Point> coordinates = null)`: null
      becomes an empty list, anything else is kept. */
  function New(coordinates: Option<seq<Point>>): (m: MultiPoint)
    ensures coordinates.None? ==> m.coordinates == []
    ensures coordinates.Some? ==> m.coordinates == coordinates.value
  {
    MultiPoint(if coordinates.Some? then coordinates.value else [])
  }

  /** A reference an operand or argument of static type MultiPoint can hold:
      null or an instance (`Obj`). A subclass instance is an `Obj` like any
      other: no member here looks at the exact runtime type, and
      `Equals(MultiPoint)` and the operators are not virtual. Only an object
      that is not a MultiPoint at all is `Foreign`, and static typing keeps
      such an object out of these operands. */
  type MultiPointRef = r: Ref<MultiPoint> | !r.Foreign? witness Null

  /** `Equals(left, right)`: false unless the base objects are equal; then
      the point lists must be sequence-equal. A null `left`, and then a null
      `right`, that the base comparison lets through is dereferenced. */
  function Equals(left: Option<MultiPoint>, right: Option<MultiPoint>, baseEqual: bool,
                  pointEq: (Point, Point) -> bool): (r: Result<bool, Exception>)
    ensures !baseEqual ==> r == Success(false)
    ensures baseEqual && (left.None? || right.None?) ==> r == Failure(NullReference)
    ensures r.Success? <==> !baseEqual || (left.Some? && right.Some?)
    ensures left.Some? && right.Some? ==>
              (r.value <==> baseEqual && |left.value.coordinates| == |right.value.coordinates|
                            && forall i :: 0 <= i < |left.value.coordinates| ==>
                                 pointEq(left.value.coordinates[i], right.value.coordinates[i]))
  {
    if !baseEqual then Success(false)
    else if left.None? || right.None? then Failure(NullReference)
    else Success(Linq.SequenceEqual(left.value.coordinates, right.value.coordinates, pointEq))
  }

  /** `obj as MultiPoint`: an instance of MultiPoint or of a subclass (`Obj`)
      comes through; null and an object of an unrelated type read as null. */
  function AsMultiPoint(obj: Ref<MultiPoint>): (m: Option<MultiPoint>)
    ensures m.Some? <==> obj.Obj?
    ensures m.Some? ==> m.value == obj.value
  {
    if obj.Obj? then Some(obj.value) else None
  }

  /** `Equals(object obj)`, which is `Equals(this, obj as MultiPoint)`: a
      MultiPoint argument, subclass instances included, is compared; an
      argument of an unrelated type behaves exactly like null. */
  function ObjectEquals(self: MultiPoint, obj: Ref<MultiPoint>, baseEqual: bool,
                        pointEq: (Point, Point) -> bool): (r: Result<bool, Exception>)
    ensures !obj.Obj? ==> r == Equals(Some(self), None, baseEqual, pointEq)
    ensures obj.Obj? ==> r == Equals(Some(self), Some(obj.value), baseEqual, pointEq)
  {
    Equals(Some(self), AsMultiPoint(obj), baseEqual, pointEq)
  }

  /** `operator ==`. It tests `left != null`, which calls `!=` and so `==`
      again, on a null right-hand side; that inner call ends at its first or
      second test. */
  function EqualsOperator(left: MultiPointRef, right: MultiPointRef, baseEqual: bool,
                          pointEq: (Point, Point) -> bool): (r: bool)
    ensures ReferenceEquals(left, right) ==> r
    ensures left.Null? != right.Null? ==> !r
    ensures left.Obj? && right.Obj? && left.id != right.id ==>
              (r <==> Equals(Some(left.value), Some(right.value), baseEqual, pointEq) == Success(true))
    decreases if right.Null? then 0 else 2
  {
    if ReferenceEquals(left, right) then true
    else if right.Null? then false
    else if !NotEqualsOperator(left, Null, baseEqual, pointEq) then false
    else Equals(Some(left.value), Some(right.value), baseEqual, pointEq) == Success(true)
  }

  /** `operator !=`: `!(left == right)`. */
  function NotEqualsOperator(left: MultiPointRef, right: MultiPointRef, baseEqual: bool,
                             pointEq: (Point, Point) -> bool): (r: bool)
    ensures ReferenceEquals(left, right) ==> !r
    ensures left.Null? != right.Null? ==> r
    ensures left.Obj? && right.Obj? && left.id != right.id ==>
              (r <==> Equals(Some(left.value), Some(right.value), baseEqual, pointEq) != Success(true))
    decreases if right.Null? then 1 else 3
  {
    !EqualsOperator(left, right, baseEqual, pointEq)
  }

  /** One step of the hash loop, in unchecked 32-bit arithmetic. */
  function Mix397(hash: bv32, item: bv32): bv32
  {
    (hash * 397) ^ item
  }

  /** `GetHashCode()`: starting from the base hash, fold `(h * 397) ^ hash(item)`
      over the points in order. */
  method GetHashCode(m: MultiPoint, baseHash: bv32, pointHash: Point -> bv32) returns (hash: bv32)
    ensures hash == Linq.Aggregate(baseHash, Linq.Select(m.coordinates, pointHash), Mix397)
    ensures |m.coordinates| == 0 ==> hash == baseHash
    ensures |m.coordinates| > 0 ==>
              var n := |m.coordinates|;
              hash == Mix397(Linq.Aggregate(baseHash, Linq.Select(m.coordinates[..n - 1], pointHash), Mix397),
                             pointHash(m.coordinates[n - 1]))
  {
    var itemHashes := Linq.Select(m.coordinates, pointHash);
    hash := baseHash;
    var i := 0;
    while i < |m.coordinates|
      invariant 0 <= i <= |m.coordinates|
      invariant hash == Linq.Aggregate(baseHash, itemHashes[..i], Mix397)
    {
      assert itemHashes[..i + 1] == itemHashes[..i] + [itemHashes[i]];
      Linq.AggregateSnoc(baseHash, itemHashes[..i], itemHashes[i], Mix397);
      hash := Mix397(hash, pointHash(m.coordinates[i]));
      i := i + 1;
    }
    assert itemHashes[..i] == itemHashes;
    if |m.coordinates| > 0 {
      var n := |m.coordinates|;
      assert itemHashes[..n - 1] == Linq.Select(m.coordinates[..n - 1], pointHash);
      assert itemHashes == itemHashes[..n - 1] + [itemHashes[n - 1]];
      Linq.AggregateSnoc(baseHash, itemHashes[..n - 1], itemHashes[n - 1], Mix397);
    }
  }

  /** `GetHashCode(MultiPoint other)`: `other.GetHashCode()`, which
      dereferences a null argument. */
  method GetHashCodeOf(other: Option<MultiPoint>, baseHash: bv32, pointHash: Point -> bv32)
    returns (r: Result<bv32, Exception>)
    ensures other.None? ==> r == Failure(NullReference)
    ensures other.Some? ==> r == Success(Linq.Aggregate(baseHash, Linq.Select(other.value.coordinates, pointHash), Mix397))
  {
    if other.None? {
      r := Failure(NullReference);
    } else {
      var h := GetHashCode(other.value, baseHash, pointHash);
      r := Success(h);
    }
  }

  /** Swapping two points can change the hash: point hashes 1 and 2 fold to
      different values in the two orders (here with base hash 0). */
  lemma HashOrderSensitive()
    ensures Linq.Aggregate(0, [1, 2], Mix397) != Linq.Aggregate(0, [2, 1], Mix397)
  {
    var one: bv32, two: bv32 := 1, 2;
    assert [one, two][1..] == [two] && [two, one][1..] == [one];
    assert [one][1..] == [] && [two][1..] == [];
    assert Linq.Aggregate(Mix397(Mix397(0, one), two), [], Mix397) == Mix397(Mix397(0, one), two);
    assert Linq.Aggregate(Mix397(0, one), [two], Mix397) == Mix397(Mix397(0, one), two);
    assert Linq.Aggregate(0, [one, two], Mix397) == Mix397(Mix397(0, one), two);
    assert Linq.Aggregate(Mix397(Mix397(0, two), one), [], Mix397) == Mix397(Mix397(0, two), one);
    assert Linq.Aggregate(Mix397(0, two), [one], Mix397) == Mix397(Mix397(0, two), one);
    assert Linq.Aggregate(0, [two, one], Mix397) == Mix397(Mix397(0, two), one);
  }

  /** But not always: point hashes 511 and 513 fold to the same value in
      either order (base hash 0), since 511 * 397 ^ 513 == 513 * 397 ^ 511
      in 32 bits. */
  lemma HashSwapCollision()
    ensures Linq.Aggregate(0, [511, 513], Mix397) == Linq.Aggregate(0, [513, 511], Mix397)
  {
    var a: bv32, b: bv32 := 511, 513;
    assert [a, b][1..] == [b] && [b, a][1..] == [a];
    assert [a][1..] == [] && [b][1..] == [];
    assert Linq.Aggregate(Mix397(0, a), [b], Mix397) == Mix397(Mix397(0, a), b);
    assert Linq.Aggregate(0, [a, b], Mix397) == Mix397(Mix397(0, a), b);
    assert Linq.Aggregate(Mix397(0, b), [a], Mix397) == Mix397(Mix397(0, b), a);
    assert Linq.Aggregate(0, [b, a], Mix397) == Mix397(Mix397(0, b), a);
  }
}

=== FILE: multi_polygon.dfy ===
/** MultiPolygon: a list of polygons' ring lists (section 3.1.7 of RFC 7946).
    The raw-coordinates constructor does not validate rings. */
module MultiPolygons {
  import opened Wrappers
  import opened Runtime
  import opened GeographicPositions
  import PositionArrays
  import opened Polygons
  import Linq

  datatype MultiPolygon = MultiPolygon(coordinates: seq<seq<seq<GeographicPosition>>>) {

    /** The typed `Equals`: base equality, and the polygons are pairwise equal
        under `PositionArrayArrayComparer`. */
    function Equals(other: MultiPolygon, baseEqual: bool, near: DoubleComparer): (r: bool)
      ensures r <==> baseEqual && |coordinates| == |other.coordinates|
                     && forall i :: 0 <= i < |coordinates| ==>
                          PositionArrays.PositionListListEquals(coordinates[i], other.coordinates[i], near)
    {
      baseEqual && Linq.SequenceEqual(coordinates, other.coordinates,
        (a: seq<seq<GeographicPosition>>, b: seq<seq<GeographicPosition>>) => PositionArrays.PositionListListEquals(a, b, near))
    }

    /** The public overload `Equals(MultiPolygon other)`, which also accepts null:
        `base.Equals(null)` decides first, and when it lets null through,
        `other.Coordinates` is dereferenced. A non-null `other` is compared
        as by the typed `Equals`. */
    function EqualsNullable(other: Option<MultiPolygon>, baseEqual: bool, near: DoubleComparer): (r: Result<bool, Exception>)
      ensures other.None? ==> r == (if baseEqual then Failure(NullReference) else Success(false))
      ensures other.Some? ==> r.Success? && (r.value <==> Equals(other.value, baseEqual, near))
    {
      if !baseEqual then Success(false)
      else if other.None? then Failure(NullReference)
      else Success(Equals(other.value, baseEqual, near))
    }
  }

  /** The constructor `MultiPolygon(IEnumerable<IEnumerable<IEnumerable<GeographicPosition>>>)`:
      copied as given, with no ring check. A null list fails in `Select`. */
  function FromCoordinates(coordinates: Option<seq<seq<seq<GeographicPosition>>>>): (r: Result<MultiPolygon, Exception>)
    ensures r.Failure? <==> coordinates.None?
    ensures coordinates.None? ==> r.error == ArgumentNull("source")
    ensures r.Success? ==> r.value.coordinates == coordinates.value
  {
    if coordinates.None? then Failure(ArgumentNull("source"))
    else Success(MultiPolygon(coordinates.value))
  }

  /** The constructor `MultiPolygon(IEnumerable<Polygon>)`: each polygon's
      rings, in order. */
  function FromPolygons(polygons: Option<seq<Polygon>>): (r: Result<MultiPolygon, Exception>)
    ensures r.Failure? <==> polygons.None?
    ensures polygons.None? ==> r.error == ArgumentNull("source")
    ensures r.Success? ==> |r.value.coordinates| == |polygons.value|
                           && forall i :: 0 <= i < |polygons.value| ==> r.value.coordinates[i] == polygons.value[i].coordinates
  {
    if polygons.None? then Failure(ArgumentNull("source"))
    else FromCoordinates(Some(Linq.Select(polygons.value, (p: Polygon) => p.coordinates)))
  }

  /** The default constructor: no polygons. */
  function Empty(): (m: MultiPolygon)
    ensures |m.coordinates| == 0
    ensures FromPolygons(Some([])) == Success(m)
  {
    FromPolygons(Some([])).value
  }

  /** Built from validly constructed polygons, every ring of every polygon is
      a strict linear ring. */
  lemma FromValidPolygons(polygons: seq<Polygon>)
    requires forall i :: 0 <= i < |polygons| ==> polygons[i].Valid()
    ensures FromPolygons(Some(polygons)).Success?
    ensures var m := FromPolygons(Some(polygons)).value;
            forall i, j :: 0 <= i < |m.coordinates| && 0 <= j < |m.coordinates[i]| ==>
              PositionArrays.IsLinearRing(m.coordinates[i][j])
  {
    var m := FromPolygons(Some(polygons)).value;
    forall i, j | 0 <= i < |m.coordinates| && 0 <= j < |m.coordinates[i]|
      ensures PositionArrays.IsLinearRing(m.coordinates[i][j])
    {
      assert m.coordinates[i] == polygons[i].coordinates;
    }
  }

  /** The raw path accepts a ring that no Polygon could hold. */
  lemma UnvalidatedRingAccepted(p: GeographicPosition)
    ensures FromCoordinates(Some([[[p]]])) == Success(MultiPolygon([[[p]]]))
    ensures Polygons.New(Some([[p]])).Failure?
  {
  }

  /** `Equals(object)`: false for null and for another runtime type, true for
      the same reference, otherwise the typed `Equals`. */
  function ObjectEquals(self: Ref<MultiPolygon>, obj: Ref<MultiPolygon>, baseEqual: bool, near: DoubleComparer): (r: bool)
    requires self.Obj?
    ensures obj.Null? ==> !r
    ensures ReferenceEquals(self, obj) ==> r
    ensures obj.Foreign? && obj.id != self.id ==> !r
    ensures obj.Obj? && obj.id != self.id ==> (r <==> self.value.Equals(obj.value, baseEqual, near))
  {
    OverrideEquals(self, obj, (a: MultiPolygon, b: MultiPolygon) => a.Equals(b, baseEqual, near))
  }

  /** `operator ==`, which is `object.Equals(left, right)`. */
  function EqualsOperator(left: Ref<MultiPolygon>, right: Ref<MultiPolygon>, baseEqual: bool, near: DoubleComparer): (r: bool)
    requires !left.Foreign?
    ensures ReferenceEquals(left, right) ==> r
    ensures left.Null? != right.Null? ==> !r
    ensures left.Obj? && right.Foreign? && left.id != right.id ==> !r
    ensures left.Obj? && right.Obj? && left.id != right.id ==> (r <==> left.value.Equals(right.value, baseEqual, near))
  {
    StaticEquals(left, right, (a: MultiPolygon, b: MultiPolygon) => a.Equals(b, baseEqual, near))
  }

  /** `operator !=`: the negation of `==`. */
  function NotEqualsOperator(left: Ref<MultiPolygon>, right: Ref<MultiPolygon>, baseEqual: bool, near: DoubleComparer): (r: bool)
    requires !left.Foreign?
    ensures ReferenceEquals(left, right) ==> !r
    ensures left.Null? != right.Null? ==> r
    ensures left.Obj? && right.Foreign? && left.id != right.id ==> r
    ensures left.Obj? && right.Obj? && left.id != right.id ==> (r <==> !left.value.Equals(right.value, baseEqual, near))
  {
    !EqualsOperator(left, right, baseEqual, near)
  }
}

=== FILE: multi_polygon_converter.dfy ===
/** MultiPolygonConverter: a list of Polygons on the wire is an array of
    polygons, each an array of rings, each an array of positions. Reading
    goes through PolygonConverter, which is not part of this model and comes
    in as `readPolygon`. */
module MultiPolygonConverter {
  import opened Wrappers
  import opened Runtime
  import opened GeographicPositions
  import opened LineStrings
  import opened Polygons
  import opened JsonValues
  import GeographicPositionConverter
  import Linq

  /** One ring: its positions, in order, each written from its accessors as
      the position converter writes it. */
  function RingJson(ring: seq<GeographicPosition>): (j: Json)
    ensures j.JArr? && |j.items| == |ring|
    ensures forall i :: 0 <= i < |ring| ==> j.items[i] == GeographicPositionConverter.PositionJson(ring[i])
  {
    JArr(Linq.Select(ring, GeographicPositionConverter.PositionJson))
  }

  /** A ring the writer keeps: one with at least one position. */
  predicate NonEmpty(ring: seq<GeographicPosition>) { |ring| > 0 }

  /** The JSON of one ring as the writer emits it inside a polygon: nothing
      for an empty ring, otherwise the ring's array. */
  function RingEntry(ring: seq<GeographicPosition>): (entries: seq<Json>)
    ensures |ring| == 0 ==> entries == []
    ensures |ring| > 0 ==> entries == [RingJson(ring)]
  {
    if NonEmpty(ring) then [RingJson(ring)] else []
  }

  /** The reference reading of the writer's ring loop: each ring in turn
      contributes its `RingEntry`. */
  function RingEntries(rings: seq<seq<GeographicPosition>>): seq<Json>
  {
    if |rings| == 0 then [] else RingEntry(rings[0]) + RingEntries(rings[1..])
  }

  /** The ring loop over a concatenation is the loop over each part. */
  lemma {:induction false} RingEntriesAppend(a: seq<seq<GeographicPosition>>, b: seq<seq<GeographicPosition>>)
    ensures RingEntries(a + b) == RingEntries(a) + RingEntries(b)
    decreases |a|
  {
    if |a| == 0 {
      assert a + b == b;
    } else {
      assert (a + b)[0] == a[0];
      assert (a + b)[1..] == a[1..] + b;
      RingEntriesAppend(a[1..], b);
    }
  }

  /** Filtering out the empty rings and then writing each one is the ring loop. */
  lemma {:induction false} FilterThenWriteIsRingLoop(rings: seq<seq<GeographicPosition>>)
    ensures Linq.Select(Linq.Where(rings, NonEmpty), RingJson) == RingEntries(rings)
    decreases |rings|
  {
    if |rings| > 0 {
      assert rings == [rings[0]] + rings[1..];
      Linq.WhereAppend([rings[0]], rings[1..], NonEmpty);
      Linq.WhereSingleton(rings[0], NonEmpty);
      Linq.SelectAppend(Linq.Where([rings[0]], NonEmpty), Linq.Where(rings[1..], NonEmpty), RingJson);
      FilterThenWriteIsRingLoop(rings[1..]);
    }
  }

  /** One polygon: a null ring list is written as an empty array; otherwise
      the rings are written one after the other, an empty ring contributing
      nothing. The writer skips empty rings with a filter; the contract
      states the result as the ring loop. */
  function PolygonJson(coordinates: Option<seq<seq<GeographicPosition>>>): (j: Json)
    ensures j.JArr?
    ensures coordinates.None? ==> j.items == []
    ensures coordinates.Some? ==> j.items == RingEntries(coordinates.value)
  {
    var rings := if coordinates.Some? then coordinates.value else [];
    FilterThenWriteIsRingLoop(rings);
    JArr(Linq.Select(Linq.Where(rings, NonEmpty), RingJson))
  }

  /** The rings of a concatenation are written as the rings of the first part
      followed by those of the second. */
  lemma {:induction false} PolygonJsonAppend(a: seq<seq<GeographicPosition>>, b: seq<seq<GeographicPosition>>)
    ensures PolygonJson(Some(a + b)).items == PolygonJson(Some(a)).items + PolygonJson(Some(b)).items
  {
    RingEntriesAppend(a, b);
  }

  /** A polygon of one ring is written as that ring when it is non-empty and
      as an empty array when it is empty. */
  lemma PolygonJsonOneRing(ring: seq<GeographicPosition>)
    ensures |ring| > 0 ==> PolygonJson(Some([ring])).items == [RingJson(ring)]
    ensures |ring| == 0 ==> PolygonJson(Some([ring])).items == []
  {
    assert [ring][1..] == [];
  }

  /** Every ring of a validly constructed polygon is non-empty, so none is
      skipped: the polygon is written ring for ring. */
  lemma {:induction false} ValidPolygonWrittenWhole(p: Polygon)
    requires p.Valid()
    ensures PolygonJson(Some(p.coordinates)).items == Linq.Select(p.coordinates, RingJson)
    ensures |PolygonJson(Some(p.coordinates)).items| == |p.coordinates|
  {
    assert forall i :: 0 <= i < |p.coordinates| ==> NonEmpty(p.coordinates[i]);
  }

  /** An empty ring leaves no trace wherever it stands among the rings. */
  lemma {:induction false} EmptyRingSkipped(a: seq<seq<GeographicPosition>>, b: seq<seq<GeographicPosition>>)
    ensures PolygonJson(Some(a + [[]] + b)) == PolygonJson(Some(a + b))
  {
    var empty: seq<GeographicPosition> := [];
    var withEmpty := a + [empty] + b;
    assert RingEntries([empty]) == [] by {
      assert [empty][1..] == [];
    }
    assert RingEntries(withEmpty) == RingEntries(a + [empty]) + RingEntries(b) by {
      RingEntriesAppend(a + [empty], b);
    }
    assert RingEntries(a + [empty]) == RingEntries(a) by {
      RingEntriesAppend(a, [empty]);
    }
    assert RingEntries(a + b) == RingEntries(a) + RingEntries(b) by {
      RingEntriesAppend(a, b);
    }
    assert PolygonJson(Some(withEmpty)).items == PolygonJson(Some(a + b)).items;
  }

  /** `WriteJson`: a list of polygons is written as one array with an entry
      per polygon, in order; any other value writes nothing (`None`). */
  function WriteJson(value: Ref<seq<Polygon>>): (written: Option<Json>)
    ensures written.Some? <==> value.Obj?
    ensures value.Obj? ==> written.value.JArr? && |written.value.items| == |value.value|
    ensures value.Obj? ==> forall i :: 0 <= i < |value.value| ==>
              written.value.items[i] == PolygonJson(Some(value.value[i].coordinates))
  {
    if value.Obj? then
      Some(JArr(Linq.Select(value.value, (p: Polygon) => PolygonJson(Some(p.coordinates)))))
    else None
  }

  /** One item of the outer array read as a polygon: through `readPolygon`,
      then through the Polygon constructor taking LineStrings (`None` is a
      result that is not a LineString list, which that constructor receives
      as null). Either step's exception is the item's. */
  function ItemPolygon(item: Json, readPolygon: Json -> Result<Option<seq<LineString>>, Exception>)
    : (r: Result<Polygon, Exception>)
    ensures readPolygon(item).Failure? ==> r == Failure(readPolygon(item).error)
    ensures readPolygon(item).Success? ==> r == FromLineStrings(readPolygon(item).value)
  {
    var lines :- readPolygon(item);
    FromLineStrings(lines)
  }

  /** The polygons read from the items of the outer array, in order. The
      items are read one by one, so the first item that fails ends the read
      with its own exception. */
  function ReadPolygons(items: seq<Json>, readPolygon: Json -> Result<Option<seq<LineString>>, Exception>)
    : (r: Result<seq<Polygon>, Exception>)
    ensures r.Success? <==> forall i :: 0 <= i < |items| ==>
              readPolygon(items[i]).Success? && FromLineStrings(readPolygon(items[i]).value).Success?
    ensures r.Success? ==> |r.value| == |items|
    ensures r.Success? ==> forall i :: 0 <= i < |items| ==>
              r.value[i] == FromLineStrings(readPolygon(items[i]).value).value
    ensures r.Success? ==> forall i :: 0 <= i < |r.value| ==> r.value[i].Valid()
    ensures r.Failure? ==>
              exists i :: 0 <= i < |items| &&
                (forall j :: 0 <= j < i ==> ItemPolygon(items[j], readPolygon).Success?) &&
                ItemPolygon(items[i], readPolygon).Failure? &&
                r.error == ItemPolygon(items[i], readPolygon).error
  {
    if |items| == 0 then Success([])
    else
      var polygon := ItemPolygon(items[0], readPolygon);
      if polygon.Failure? then Failure(polygon.error)
      else
        var rest := ReadPolygons(items[1..], readPolygon);
        assert rest.Failure? ==>
                 exists i :: 1 <= i < |items| && !(readPolygon(items[i]).Success? && FromLineStrings(readPolygon(items[i]).value).Success?)
        by {
          if rest.Failure? {
            var j :| 0 <= j < |items[1..]| &&
              !(readPolygon(items[1..][j]).Success? && FromLineStrings(readPolygon(items[1..][j]).value).Success?);
            assert items[1..][j] == items[j + 1];
          }
        }
        if rest.Failure? then
          assert exists i :: 0 <= i < |items|
                   && (forall j :: 0 <= j < i ==> ItemPolygon(items[j], readPolygon).Success?)
                   && ItemPolygon(items[i], readPolygon).Failure?
                   && rest.error == ItemPolygon(items[i], readPolygon).error
          by {
            var k :| 0 <= k < |items[1..]|
                     && (forall j :: 0 <= j < k ==> ItemPolygon(items[1..][j], readPolygon).Success?)
                     && ItemPolygon(items[1..][k], readPolygon).Failure?
                     && rest.error == ItemPolygon(items[1..][k], readPolygon).error;
            assert forall j :: 1 <= j < k + 1 ==> items[j] == items[1..][j - 1];
            assert items[k + 1] == items[1..][k];
          }
          Failure(rest.error)
        else Success([polygon.value] + rest.value)
  }

  /** `ReadJson`: the JSON must be an array; null reaches `Select` as a null
      source, and a number is not an array. */
  function ReadJson(reader: Json, readPolygon: Json -> Result<Option<seq<LineString>>, Exception>)
    : (r: Result<seq<Polygon>, Exception>)
    ensures reader.JNull? ==> r == Failure(ArgumentNull("source"))
    ensures reader.JNum? ==> r == Failure(JsonSerialization)
    ensures reader.JArr? ==> r == ReadPolygons(reader.items, readPolygon)
  {
    match reader
    case JNull => Failure(ArgumentNull("source"))
    case JNum(_) => Failure(JsonSerialization)
    case JArr(items) => ReadPolygons(items, readPolygon)
  }

  /** What PolygonConverter must do for the round trip: read a written
      polygon back as LineStrings holding its rings. */
  ghost predicate ReadsBackPolygons(polygons: seq<Polygon>, readPolygon: Json -> Result<Option<seq<LineString>>, Exception>)
  {
    forall i :: 0 <= i < |polygons| ==>
      readPolygon(PolygonJson(Some(polygons[i].coordinates))) == Success(Some(AsLineStrings(polygons[i].coordinates)))
  }

  /** Round trip: validly constructed polygons, written and read back through
      a PolygonConverter that inverts the ring writer, come back unchanged. */
  lemma {:induction false} RoundTrip(id: nat, polygons: seq<Polygon>,
                                     readPolygon: Json -> Result<Option<seq<LineString>>, Exception>)
    requires forall i :: 0 <= i < |polygons| ==> polygons[i].Valid()
    requires ReadsBackPolygons(polygons, readPolygon)
    ensures ReadJson(WriteJson(Obj(id, polygons)).value, readPolygon) == Success(polygons)
  {
    var items := WriteJson(Obj(id, polygons)).value.items;
    forall i | 0 <= i < |polygons|
      ensures readPolygon(items[i]).Success?
      ensures FromLineStrings(readPolygon(items[i]).value) == Success(polygons[i])
    {
      FromLineStringsRecoversValid(polygons[i]);
    }
    var r := ReadPolygons(items, readPolygon);
    assert r.Success?;
    assert r.value == polygons;
  }
}

=== FILE: points.dfy ===
/** Point, as far as the multi-geometries use it. Point.cs itself is not part
    of this model: only its `Coordinates` position is read here, and the newer
    MultiPoint compares and hashes points through parameters. */
module Points {
  import opened GeographicPositions

  datatype Point = Point(coordinates: GeographicPosition)
}

=== FILE: polygon.dfy ===
/** Polygon: a list of linear rings, the first the exterior and the rest holes
    (section 3.1.6 of RFC 7946). Ring closure is checked STRICTLY here. */
module Polygons {
  import opened Wrappers
  import opened Runtime
  import opened GeographicPositions
  import PositionArrays
  import opened LineStrings
  import Linq

  datatype Polygon = Polygon(coordinates: seq<seq<GeographicPosition>>) {

    /** The construction invariant: every ring is a strict linear ring. */
    predicate Valid()
    {
      forall i :: 0 <= i < |coordinates| ==> PositionArrays.IsLinearRing(coordinates[i])
    }

    /** The typed `Equals`: base equality, and the rings are pairwise equal
        under `PositonArrayComparer`. */
    function Equals(other: Polygon, baseEqual: bool, near: DoubleComparer): (r: bool)
      ensures r <==> baseEqual && |coordinates| == |other.coordinates|
                     && forall i :: 0 <= i < |coordinates| ==>
                          PositionArrays.PositionListEquals(coordinates[i], other.coordinates[i], near)
    {
      baseEqual && PositionArrays.PositionListListEquals(coordinates, other.coordinates, near)
    }

    /** The public overload `Equals(Polygon other)`, which also accepts null:
        `base.Equals(null)` decides first, and when it lets null through,
        `other.Coordinates` is dereferenced. A non-null `other` is compared
        as by the typed `Equals`. */
    function EqualsNullable(other: Option<Polygon>, baseEqual: bool, near: DoubleComparer): (r: Result<bool, Exception>)
      ensures other.None? ==> r == (if baseEqual then Failure(NullReference) else Success(false))
      ensures other.Some? ==> r.Success? && (r.value <==> Equals(other.value, baseEqual, near))
    {
      if !baseEqual then Success(false)
      else if other.None? then Failure(NullReference)
      else Success(Equals(other.value, baseEqual, near))
    }
  }

  /** A ring accepted by the validating constructor: four or more positions,
      the first exactly equal to the last. */
  predicate IsRing(ring: seq<GeographicPosition>)
  {
    |ring| >= 4 && ring[0] == ring[|ring| - 1]
  }

  /** The constructor `Polygon(IEnumerable<IEnumerable<GeographicPosition>>)`:
      null is refused; if any ring is not a linear ring the whole
      construction fails; otherwise the rings are kept in order. Zero rings
      are accepted. */
  function New(coordinates: Option<seq<seq<GeographicPosition>>>): (r: Result<Polygon, Exception>)
    ensures coordinates.None? ==> r == Failure(ArgumentNull("coordinates"))
    ensures coordinates.Some? ==>
              (r.Success? <==> forall i :: 0 <= i < |coordinates.value| ==> IsRing(coordinates.value[i]))
    ensures coordinates.Some? && r.Failure? ==> r.error == Argument("coordinates", NotLinearRings)
    ensures r.Success? ==> r.value.coordinates == coordinates.value && r.value.Valid()
  {
    if coordinates.None? then Failure(ArgumentNull("coordinates"))
    else
      var rings := coordinates.value;
      var notRing := (ring: seq<GeographicPosition>) => !PositionArrays.IsLinearRing(ring);
      if Linq.Any(rings, notRing) then
        Failure(Argument("coordinates", NotLinearRings))
      else
        assert forall i :: 0 <= i < |rings| ==> !notRing(rings[i]);
        Success(Polygon(rings))
  }

  /** The rings of a list of LineStrings. */
  function RingsOf(lines: seq<LineString>): (rings: seq<seq<GeographicPosition>>)
    ensures |rings| == |lines|
    ensures forall i :: 0 <= i < |lines| ==> rings[i] == lines[i].coordinates
  {
    Linq.Select(lines, (l: LineString) => l.coordinates)
  }

  /** LineStrings with the given rings as coordinates. */
  function AsLineStrings(rings: seq<seq<GeographicPosition>>): (lines: seq<LineString>)
    ensures |lines| == |rings|
    ensures forall i :: 0 <= i < |rings| ==> lines[i].coordinates == rings[i]
  {
    Linq.Select(rings, (ring: seq<GeographicPosition>) => LineString(ring))
  }

  /** The constructor `Polygon(IReadOnlyCollection<LineString>)`: it passes
      each LineString's coordinates to the position-list constructor, so a
      ring that is closed only tolerantly is still refused. A null list fails
      in `Select`, whose parameter is named `source`. */
  function FromLineStrings(lines: Option<seq<LineString>>): (r: Result<Polygon, Exception>)
    ensures lines.None? ==> r == Failure(ArgumentNull("source"))
    ensures lines.Some? ==>
              (r.Success? <==> forall i :: 0 <= i < |lines.value| ==> IsRing(lines.value[i].coordinates))
    ensures lines.Some? && r.Failure? ==> r.error == Argument("coordinates", NotLinearRings)
    ensures r.Success? ==> r.value.Valid()
                           && |r.value.coordinates| == |lines.value|
                           && forall i :: 0 <= i < |lines.value| ==> r.value.coordinates[i] == lines.value[i].coordinates
  {
    if lines.None? then Failure(ArgumentNull("source"))
    else New(Some(RingsOf(lines.value)))
  }

  /** The constructor accepts exactly the valid polygons, unchanged. */
  lemma NewRecoversValid(p: Polygon)
    ensures p.Valid() <==> New(Some(p.coordinates)) == Success(p)
  {
  }

  /** Wrapping a valid polygon's rings in LineStrings and constructing from
      those gives the polygon back. */
  lemma FromLineStringsRecoversValid(p: Polygon)
    requires p.Valid()
    ensures FromLineStrings(Some(AsLineStrings(p.coordinates))) == Success(p)
  {
    var rings := RingsOf(AsLineStrings(p.coordinates));
    assert rings == p.coordinates;
  }

  /** The divergence between the two closure tests: when the comparer holds
      for two positions that are not identical, a four-position LineString
      running from one to the other is a linear ring by its own `IsLinearRing`,
      yet a Polygon built from it is refused. */
  lemma TolerantRingRefused(first: GeographicPosition, b: GeographicPosition, c: GeographicPosition,
                            last: GeographicPosition, near: DoubleComparer)
    requires first.Equals(last, near) && !first.StrictlyEquals(last)
    ensures LineString([first, b, c, last]).IsLinearRing(near)
    ensures FromLineStrings(Some([LineString([first, b, c, last])])).Failure?
  {
    var line := LineString([first, b, c, last]);
    assert !IsRing(line.coordinates);
  }

  /** `Equals(object)`: false for null and for another runtime type, true for
      the same reference, otherwise the typed `Equals`. */
  function ObjectEquals(self: Ref<Polygon>, obj: Ref<Polygon>, baseEqual: bool, near: DoubleComparer): (r: bool)
    requires self.Obj?
    ensures obj.Null? ==> !r
    ensures ReferenceEquals(self, obj) ==> r
    ensures obj.Foreign? && obj.id != self.id ==> !r
    ensures obj.Obj? && obj.id != self.id ==> (r <==> self.value.Equals(obj.value, baseEqual, near))
  {
    OverrideEquals(self, obj, (a: Polygon, b: Polygon) => a.Equals(b, baseEqual, near))
  }

  /** `operator ==`, which is `object.Equals(left, right)`. */
  function EqualsOperator(left: Ref<Polygon>, right: Ref<Polygon>, baseEqual: bool, near: DoubleComparer): (r: bool)
    requires !left.Foreign?
    ensures ReferenceEquals(left, right) ==> r
    ensures left.Null? != right.Null? ==> !r
    ensures left.Obj? && right.Foreign? && left.id != right.id ==> !r
    ensures left.Obj? && right.Obj? && left.id != right.id ==> (r <==> left.value.Equals(right.value, baseEqual, near))
  {
    StaticEquals(left, right, (a: Polygon, b: Polygon) => a.Equals(b, baseEqual, near))
  }

  /** `operator !=`: the negation of `==`. */
  function NotEqualsOperator(left: Ref<Polygon>, right: Ref<Polygon>, baseEqual: bool, near: DoubleComparer): (r: bool)
    requires !left.Foreign?
    ensures ReferenceEquals(left, right) ==> !r
    ensures left.Null? != right.Null? ==> r
    ensures left.Obj? && right.Foreign? && left.id != right.id ==> r
    ensures left.Obj? && right.Obj? && left.id != right.id ==> (r <==> !left.value.Equals(right.value, baseEqual, near))
  {
    !EqualsOperator(left, right, baseEqual, near)
  }
}

=== FILE: position.dfy ===
/** GeographicPosition: a longitude/latitude pair with an optional altitude,
    stored in the order section 3.1.1 of RFC 7946 prescribes. */
module GeographicPositions {
  import opened Wrappers
  import opened Runtime
  import Linq

  /** The tolerant double comparer (`DoubleTenDecimalPlaceComparer.Equals`,
      equal to ten decimal places). Its definition is not part of this model:
      every tolerant comparison takes it as a parameter. */
  type DoubleComparer = (real, real) -> bool

  /** The internal coordinate array: `[longitude, latitude]` or
      `[longitude, latitude, altitude]`. The constructor is its only writer. */
  type CoordinateArray = c: seq<real> | 2 <= |c| <= 3 witness [0.0, 0.0]

  datatype GeographicPosition = GeographicPosition(coordinates: CoordinateArray) {

    function Longitude(): real { coordinates[0] }

    function Latitude(): real { coordinates[1] }

    /** Present exactly when the array has a third entry. */
    function Altitude(): (alt: Option<real>)
      ensures alt.None? <==> |coordinates| == 2
      ensures alt.Some? ==> alt.value == coordinates[2]
    {
      if |coordinates| > 2 then Some(coordinates[2]) else None
    }

    /** The typed `Equals`: the coordinate arrays have the same length and are
        pairwise equal under the tolerant comparer. */
    function Equals(other: GeographicPosition, near: DoubleComparer): (r: bool)
      ensures r <==> |coordinates| == |other.coordinates|
                     && forall i :: 0 <= i < |coordinates| ==> near(coordinates[i], other.coordinates[i])
    {
      Linq.SequenceEqual(coordinates, other.coordinates, near)
    }

    /** `StrictlyEquals`: exact elementwise equality of the arrays, which is
        equality of the positions themselves. */
    function StrictlyEquals(other: GeographicPosition): (r: bool)
      ensures r <==> this == other
    {
      var exact := (x: real, y: real) => x == y;
      var r := Linq.SequenceEqual(coordinates, other.coordinates, exact);
      assert r ==> coordinates == other.coordinates by {
        if r {
          assert forall i :: 0 <= i < |coordinates| ==> exact(coordinates[i], other.coordinates[i]);
        }
      }
      r
    }
  }

  /** The constructor `GeographicPosition(latitude, longitude, altitude)`:
      latitude comes first in the argument list but second in storage, and
      every accessor gives back its own argument. */
  function Create(latitude: real, longitude: real, altitude: Option<real>): (p: GeographicPosition)
    ensures p.Latitude() == latitude
    ensures p.Longitude() == longitude
    ensures p.Altitude() == altitude
  {
    if altitude.Some? then GeographicPosition([longitude, latitude, altitude.value])
    else GeographicPosition([longitude, latitude])
  }

  /** Every position is the one the constructor builds from its accessors. */
  lemma CreateFromAccessors(p: GeographicPosition)
    ensures Create(p.Latitude(), p.Longitude(), p.Altitude()) == p
  {
    var c := p.coordinates;
    if |c| == 2 {
      assert c == [c[0], c[1]];
    } else {
      assert c == [c[0], c[1], c[2]];
    }
  }

  /** Strict equality implies tolerant equality when the comparer is reflexive. */
  lemma StrictImpliesTolerant(p: GeographicPosition, q: GeographicPosition, near: DoubleComparer)
    requires forall x :: near(x, x)
    ensures p.StrictlyEquals(q) ==> p.Equals(q, near)
  {
    if p.StrictlyEquals(q) {
      assert p == q;
      forall i | 0 <= i < |p.coordinates|
        ensures near(p.coordinates[i], q.coordinates[i])
      {
        var x := p.coordinates[i];
        assert near(x, x);
      }
    }
  }

  /** A two-component and a three-component position are never equal, tolerantly or strictly. */
  lemma DimensionsMustAgree(p: GeographicPosition, q: GeographicPosition, near: DoubleComparer)
    requires |p.coordinates| != |q.coordinates|
    ensures !p.Equals(q, near) && !p.StrictlyEquals(q)
  {
  }

  /** `Equals(object)`: false for null and for another runtime type, true for
      the same reference, otherwise the tolerant typed `Equals`. */
  function ObjectEquals(self: Ref<GeographicPosition>, obj: Ref<GeographicPosition>, near: DoubleComparer): (r: bool)
    requires self.Obj?
    ensures obj.Null? ==> !r
    ensures ReferenceEquals(self, obj) ==> r
    ensures obj.Foreign? && obj.id != self.id ==> !r
    ensures obj.Obj? && obj.id != self.id ==> (r <==> self.value.Equals(obj.value, near))
  {
    OverrideEquals(self, obj, (a: GeographicPosition, b: GeographicPosition) => a.Equals(b, near))
  }

  /** `operator ==`, which is `object.Equals(left, right)`. */
  function EqualsOperator(left: Ref<GeographicPosition>, right: Ref<GeographicPosition>, near: DoubleComparer): (r: bool)
    requires !left.Foreign?
    ensures ReferenceEquals(left, right) ==> r
    ensures left.Null? != right.Null? ==> !r
    ensures left.Obj? && right.Foreign? && left.id != right.id ==> !r
    ensures left.Obj? && right.Obj? && left.id != right.id ==> (r <==> left.value.Equals(right.value, near))
  {
    StaticEquals(left, right, (a: GeographicPosition, b: GeographicPosition) => a.Equals(b, near))
  }

  /** `operator !=`: the negation of `==`. */
  function NotEqualsOperator(left: Ref<GeographicPosition>, right: Ref<GeographicPosition>, near: DoubleComparer): (r: bool)
    requires !left.Foreign?
    ensures ReferenceEquals(left, right) ==> !r
    ensures left.Null? != right.Null? ==> r
    ensures left.Obj? && right.Foreign? && left.id != right.id ==> r
    ensures left.Obj? && right.Obj? && left.id != right.id ==> (r <==> !left.value.Equals(right.value, near))
  {
    !EqualsOperator(left, right, near)
  }

  /** `char.IsWhiteSpace`: the Unicode space separators, the line and
      paragraph separators, and U+0009 to U+000D, U+0085 and U+00A0. */
  predicate IsWhiteSpace(c: char)
  {
    var n := c as int;
    (0x09 <= n <= 0x0D) || n == 0x20 || n == 0x85 || n == 0xA0 || n == 0x1680
    || (0x2000 <= n <= 0x200A) || n == 0x2028 || n == 0x2029 || n == 0x202F
    || n == 0x205F || n == 0x3000
  }

  /** `string.IsNullOrWhiteSpace` on a non-null string: empty or all white space. */
  predicate IsBlank(s: string)
  {
    forall i :: 0 <= i < |s| ==> IsWhiteSpace(s[i])
  }

  /** A latitude the text parser accepts. */
  predicate LatitudeInRange(lat: real) { -90.0 <= lat <= 90.0 }

  /** A longitude the text parser accepts. */
  predicate LongitudeInRange(lon: real) { -180.0 <= lon <= 180.0 }

  /** `Abs(x) > bound` as the source writes the range test. */
  predicate AbsExceeds(x: real, bound: real) { (if x < 0.0 then -x else x) > bound }

  /** `GeographicPosition.Parse(latitude, longitude, altitude)`. `None` is a
      null string; `tryParse` is `double.TryParse` with the invariant culture,
      which is not part of this model. The checks run in order: null latitude,
      null longitude, blank latitude, blank longitude, latitude, longitude,
      altitude. */
  function Parse(latitude: Option<string>, longitude: Option<string>, altitude: Option<string>,
                 tryParse: string -> Option<real>): (r: Result<GeographicPosition, Exception>)
    // null checks, latitude first
    ensures latitude.None? ==> r == Failure(ArgumentNull("latitude"))
    ensures latitude.Some? && longitude.None? ==> r == Failure(ArgumentNull("longitude"))
    // blank checks, before any number is parsed (the outcome does not depend on tryParse)
    ensures latitude.Some? && longitude.Some? && IsBlank(latitude.value)
            ==> r == Failure(ArgumentOutOfRange("latitude", MayNotBeEmpty))
    ensures latitude.Some? && longitude.Some? && !IsBlank(latitude.value) && IsBlank(longitude.value)
            ==> r == Failure(ArgumentOutOfRange("longitude", MayNotBeEmpty))
    // range checks, bounds included
    ensures latitude.Some? && longitude.Some? && !IsBlank(latitude.value) && !IsBlank(longitude.value)
            && (tryParse(latitude.value).None? || !LatitudeInRange(tryParse(latitude.value).value))
            ==> r == Failure(ArgumentOutOfRange("latitude", BadLatitude))
    ensures latitude.Some? && longitude.Some? && !IsBlank(latitude.value) && !IsBlank(longitude.value)
            && tryParse(latitude.value).Some? && LatitudeInRange(tryParse(latitude.value).value)
            && (tryParse(longitude.value).None? || !LongitudeInRange(tryParse(longitude.value).value))
            ==> r == Failure(ArgumentOutOfRange("longitude", BadLongitude))
    // success exactly when every check passes
    ensures r.Success? <==>
              && latitude.Some? && longitude.Some?
              && !IsBlank(latitude.value) && !IsBlank(longitude.value)
              && tryParse(latitude.value).Some? && LatitudeInRange(tryParse(latitude.value).value)
              && tryParse(longitude.value).Some? && LongitudeInRange(tryParse(longitude.value).value)
              && (altitude.Some? ==> tryParse(altitude.value).Some?)
    ensures r.Failure? && latitude.Some? && longitude.Some? && !IsBlank(latitude.value) && !IsBlank(longitude.value)
            && tryParse(latitude.value).Some? && LatitudeInRange(tryParse(latitude.value).value)
            && tryParse(longitude.value).Some? && LongitudeInRange(tryParse(longitude.value).value)
            ==> r.error == ArgumentOutOfRange("altitude", BadAltitude)
    // the parsed values land in their accessors; three components iff altitude text was given
    ensures r.Success? ==> r.value.Latitude() == tryParse(latitude.value).value
                           && r.value.Longitude() == tryParse(longitude.value).value
    ensures r.Success? ==> (|r.value.coordinates| == 3 <==> altitude.Some?)
    ensures r.Success? && altitude.Some? ==> r.value.Altitude() == tryParse(altitude.value)
  {
    if latitude.None? then Failure(ArgumentNull("latitude"))
    else if longitude.None? then Failure(ArgumentNull("longitude"))
    else if IsBlank(latitude.value) then Failure(ArgumentOutOfRange("latitude", MayNotBeEmpty))
    else if IsBlank(longitude.value) then Failure(ArgumentOutOfRange("longitude", MayNotBeEmpty))
    else
      var lat := tryParse(latitude.value);
      if lat.None? || AbsExceeds(lat.value, 90.0) then Failure(ArgumentOutOfRange("latitude", BadLatitude))
      else
        var lon := tryParse(longitude.value);
        if lon.None? || AbsExceeds(lon.value, 180.0) then Failure(ArgumentOutOfRange("longitude", BadLongitude))
        else if altitude.Some? then
          var alt := tryParse(altitude.value);
          if alt.None? then Failure(ArgumentOutOfRange("altitude", BadAltitude))
          else Success(Create(lat.value, lon.value, Some(alt.value)))
        else Success(Create(lat.value, lon.value, None))
  }

  /** Parsing texts that read as an in-range latitude and longitude (and an
      altitude, when given) yields the position the numeric constructor builds
      from those numbers. */
  lemma ParseAgreesWithCreate(latText: string, lonText: string, altText: Option<string>,
                              tryParse: string -> Option<real>, lat: real, lon: real)
    requires !IsBlank(latText) && !IsBlank(lonText)
    requires tryParse(latText) == Some(lat) && LatitudeInRange(lat)
    requires tryParse(lonText) == Some(lon) && LongitudeInRange(lon)
    requires altText.Some? ==> tryParse(altText.value).Some?
    ensures Parse(Some(latText), Some(lonText), altText, tryParse)
            == Success(Create(lat, lon, if altText.Some? then tryParse(altText.value) else None))
  {
  }
}

=== FILE: position_arrays.dfy ===
/** PositionArrayHelpers: ring closure and the linear-ring test on position
    lists, and the two list comparers (`PositonArrayComparer` for a list of
    positions, `PositionArrayArrayComparer` for a list of such lists). */
module PositionArrays {
  import opened Wrappers
  import opened Runtime
  import opened GeographicPositions
  import Linq

  /** `IsClosed`: the first position strictly equals the last. `First()` on
      an empty list throws. */
  function IsClosed(positions: seq<GeographicPosition>): (r: Result<bool, Exception>)
    ensures r.Failure? <==> |positions| == 0
    ensures r.Failure? ==> r.error == InvalidOperation
    ensures r.Success? ==> (r.value <==> positions[0] == positions[|positions| - 1])
  {
    if |positions| == 0 then Failure(InvalidOperation)
    else Success(positions[0].StrictlyEquals(positions[|positions| - 1]))
  }

  /** `IsLinearRing`: four or more positions and closed. The count test comes
      first, so `IsClosed` is only evaluated on a non-empty list and the test
      never throws. */
  predicate IsLinearRing(positions: seq<GeographicPosition>)
  {
    |positions| >= 4 && IsClosed(positions).value
  }

  /** `IsLinearRing` in terms of positions: at least four, first equal to last. */
  lemma LinearRingMeaning(positions: seq<GeographicPosition>)
    ensures IsLinearRing(positions) <==> |positions| >= 4 && positions[0] == positions[|positions| - 1]
  {
  }

  /** `PositonArrayComparer.Equals`: same length, pairwise tolerant-equal. */
  function PositionListEquals(x: seq<GeographicPosition>, y: seq<GeographicPosition>, near: DoubleComparer): (r: bool)
    ensures r <==> |x| == |y| && forall i :: 0 <= i < |x| ==> x[i].Equals(y[i], near)
  {
    Linq.SequenceEqual(x, y, (p: GeographicPosition, q: GeographicPosition) => p.Equals(q, near))
  }

  /** `PositionArrayArrayComparer.Equals`: the same number of inner lists, each
      pair equal under `PositonArrayComparer`. */
  function PositionListListEquals(x: seq<seq<GeographicPosition>>, y: seq<seq<GeographicPosition>>, near: DoubleComparer): (r: bool)
    ensures r <==> |x| == |y| && forall i :: 0 <= i < |x| ==> PositionListEquals(x[i], y[i], near)
  {
    Linq.SequenceEqual(x, y, (a: seq<GeographicPosition>, b: seq<GeographicPosition>) => PositionListEquals(a, b, near))
  }

  /** The list-of-lists comparer, unfolded to positions: the shapes agree and
      every pair of corresponding positions is tolerant-equal. */
  lemma PositionListListEqualsMeaning(x: seq<seq<GeographicPosition>>, y: seq<seq<GeographicPosition>>, near: DoubleComparer)
    ensures PositionListListEquals(x, y, near) <==>
              && |x| == |y|
              && (forall i :: 0 <= i < |x| ==> |x[i]| == |y[i]|)
              && (forall i, j :: 0 <= i < |x| && 0 <= j < |x[i]| ==> x[i][j].Equals(y[i][j], near))
  {
    if |x| == |y| && (forall i :: 0 <= i < |x| ==> |x[i]| == |y[i]|)
       && (forall i, j :: 0 <= i < |x| && 0 <= j < |x[i]| ==> x[i][j].Equals(y[i][j], near)) {
      forall i | 0 <= i < |x|
        ensures PositionListEquals(x[i], y[i], near)
      {
        assert forall j :: 0 <= j < |x[i]| ==> x[i][j].Equals(y[i][j], near);
      }
    }
  }

  /** One step of the comparers' hash fold, in unchecked 32-bit arithmetic. */
  function Mix31(current: bv32, item: bv32): bv32
  {
    current * 31 + item
  }

  /** `PositonArrayComparer.GetHashCode`: a left fold from 19 over the
      positions' own hash codes (which are by reference, so they are an input). */
  function PositionListHash(positionHashes: seq<bv32>): (h: bv32)
    ensures |positionHashes| == 0 ==> h == 19
    ensures |positionHashes| > 0 ==>
              h == Mix31(PositionListHash(positionHashes[..|positionHashes| - 1]), positionHashes[|positionHashes| - 1])
  {
    var n := |positionHashes|;
    if n > 0 then
      assert positionHashes == positionHashes[..n - 1] + [positionHashes[n - 1]];
      Linq.AggregateSnoc(19, positionHashes[..n - 1], positionHashes[n - 1], Mix31);
      Linq.Aggregate(19, positionHashes, Mix31)
    else
      Linq.Aggregate(19, positionHashes, Mix31)
  }

  /** `PositionArrayArrayComparer.GetHashCode`: the same fold from 19, over the
      inner lists' hashes. */
  function PositionListListHash(positionHashes: seq<seq<bv32>>): (h: bv32)
    ensures |positionHashes| == 0 ==> h == 19
    ensures |positionHashes| > 0 ==>
              var n := |positionHashes|;
              h == Mix31(PositionListListHash(positionHashes[..n - 1]), PositionListHash(positionHashes[n - 1]))
  {
    var n := |positionHashes|;
    var inner := Linq.Select(positionHashes, PositionListHash);
    if n > 0 then
      assert inner == Linq.Select(positionHashes[..n - 1], PositionListHash) + [PositionListHash(positionHashes[n - 1])];
      Linq.AggregateSnoc(19, Linq.Select(positionHashes[..n - 1], PositionListHash), PositionListHash(positionHashes[n - 1]), Mix31);
      Linq.Aggregate(19, inner, Mix31)
    else
      Linq.Aggregate(19, inner, Mix31)
  }

  /** The hash of a concatenation continues the fold of the first part. */
  lemma PositionListHashAppend(a: seq<bv32>, b: seq<bv32>)
    ensures PositionListHash(a + b) == Linq.Aggregate(PositionListHash(a), b, Mix31)
  {
    Linq.AggregateAppend(19, a, b, Mix31);
  }

  /** Swapping two positions can change the list hash: position hashes 1 and
      2 give different hashes in the two orders, in a list of positions and in
      a list of lists. */
  lemma PositionListHashOrderSensitive()
    ensures PositionListHash([1, 2]) != PositionListHash([2, 1])
    ensures PositionListListHash([[1], [2]]) != PositionListListHash([[2], [1]])
  {
    assert PositionListHash([1]) == 19 * 31 + 1 by {
      assert [1 as bv32][..0] == [];
    }
    assert PositionListHash([2]) == 19 * 31 + 2 by {
      assert [2 as bv32][..0] == [];
    }
    assert PositionListHash([1, 2]) == (19 * 31 + 1) * 31 + 2 by {
      assert [1 as bv32, 2][..1] == [1];
    }
    assert PositionListHash([2, 1]) == (19 * 31 + 2) * 31 + 1 by {
      assert [2 as bv32, 1][..1] == [2];
    }
    assert PositionListListHash([[1], [2]]) == (19 * 31 + PositionListHash([1])) * 31 + PositionListHash([2]) by {
      assert [[1 as bv32], [2]][..1] == [[1]];
      assert [[1 as bv32], [2]][..1][..0] == [];
    }
    assert PositionListListHash([[2], [1]]) == (19 * 31 + PositionListHash([2])) * 31 + PositionListHash([1]) by {
      assert [[2 as bv32], [1]][..1] == [[2]];
      assert [[2 as bv32], [1]][..1][..0] == [];
    }
  }

  /** But not always: two position hashes 2^31 apart hash the same in either
      order, because 30 * 2^31 is 0 modulo 2^32. */
  lemma PositionListHashSwapCollision()
    ensures PositionListHash([0, 0x8000_0000]) == PositionListHash([0x8000_0000, 0])
  {
    assert PositionListHash([0]) == 19 * 31 by {
      assert [0 as bv32][..0] == [];
    }
    assert PositionListHash([0x8000_0000]) == 19 * 31 + 0x8000_0000 by {
      assert [0x8000_0000 as bv32][..0] == [];
    }
    assert PositionListHash([0, 0x8000_0000]) == (19 * 31) * 31 + 0x8000_0000 by {
      assert [0 as bv32, 0x8000_0000][..1] == [0];
    }
    assert PositionListHash([0x8000_0000, 0]) == (19 * 31 + 0x8000_0000) * 31 by {
      assert [0x8000_0000 as bv32, 0][..1] == [0x8000_0000];
    }
  }
}

=== FILE: position_converter.dfy ===
/** GeographicPositionConverter: a position on the wire is its coordinate
    array, `[longitude, latitude]` or `[longitude, latitude, altitude]`. */
module GeographicPositionConverter {
  import opened Wrappers
  import opened Runtime
  import opened GeographicPositions
  import opened JsonValues

  /** The wire form of a position, in terms of its accessors: longitude,
      latitude, and the altitude only when it has one. */
  function PositionJson(p: GeographicPosition): (j: Json)
    ensures j.JArr? && 2 <= |j.items| <= 3
    ensures j.items[0] == JNum(p.Longitude()) && j.items[1] == JNum(p.Latitude())
    ensures |j.items| == 3 <==> p.Altitude().Some?
    ensures |j.items| == 3 ==> j.items[2] == JNum(p.Altitude().value)
  {
    var alt := p.Altitude();
    JArr([JNum(p.Longitude()), JNum(p.Latitude())] + (if alt.Some? then [JNum(alt.value)] else []))
  }

  /** `WriteJson`: a position is written as its stored coordinate array;
      a value that is not a position writes nothing (`None`). */
  function WriteJson(value: Ref<GeographicPosition>): (written: Option<Json>)
    ensures written.Some? <==> value.Obj?
    ensures value.Obj? ==> written.value == PositionJson(value.value)
  {
    if value.Obj? then
      var c := value.value.coordinates;
      assert NumberArray(c).items == [JNum(c[0]), JNum(c[1])] + (if |c| == 3 then [JNum(c[2])] else []);
      Some(NumberArray(c))
    else None
  }

  /** `ReadJson`: the coordinate array is the existing value when there is
      one, else the JSON read as `double[]`. Longitude is item 0, latitude
      item 1, altitude item 2 when present; later items are ignored. A null
      array is dereferenced, and an array shorter than two is indexed past
      its end. */
  function ReadJson(existingValue: Option<seq<real>>, reader: Json): (r: Result<GeographicPosition, Exception>)
    ensures existingValue.None? && reader.JNull? ==> r == Failure(NullReference)
    ensures existingValue.None? && reader.JNum? ==> r == Failure(JsonSerialization)
    ensures existingValue.Some? ==> (r.Success? <==> |existingValue.value| >= 2)
    ensures existingValue.Some? && |existingValue.value| < 2 ==> r == Failure(IndexOutOfRange)
    ensures existingValue.None? && reader.JArr? ==>
              (r.Success? <==> |reader.items| >= 2 && forall i :: 0 <= i < |reader.items| ==> reader.items[i].JNum?)
    ensures existingValue.None? && reader.JArr? && (exists i :: 0 <= i < |reader.items| && !reader.items[i].JNum?) ==>
              r == Failure(JsonSerialization)
    ensures existingValue.None? && reader.JArr? && |reader.items| < 2 &&
            (forall i :: 0 <= i < |reader.items| ==> reader.items[i].JNum?) ==>
              r == Failure(IndexOutOfRange)
    ensures r.Success? ==>
              var a := if existingValue.Some? then existingValue.value else Numbers(reader.items).value;
              && r.value.Longitude() == a[0]
              && r.value.Latitude() == a[1]
              && r.value.Altitude() == (if |a| >= 3 then Some(a[2]) else None)
  {
    var coordinate :- if existingValue.Some? then Success(existingValue) else DeserializeDoubles(reader);
    if coordinate.None? then Failure(NullReference)
    else
      var a := coordinate.value;
      if |a| < 2 then Failure(IndexOutOfRange)
      else Success(Create(a[1], a[0], if |a| >= 3 then Some(a[2]) else None))
  }

  /** Numeric items after the third are never read: a JSON array that goes
      on past the altitude reads as its first three items. */
  lemma ReadIgnoresExtraItems(items: seq<Json>, extra: seq<Json>)
    requires |items| == 3
    requires forall i :: 0 <= i < |extra| ==> extra[i].JNum?
    ensures ReadJson(None, JArr(items + extra)) == ReadJson(None, JArr(items))
  {
    var all := items + extra;
    assert forall i :: 0 <= i < |items| ==> all[i] == items[i];
    assert forall i :: |items| <= i < |all| ==> all[i] == extra[i - |items|];
    var whole, head := Numbers(all), Numbers(items);
    assert whole.Some? <==> head.Some?;
    if whole.Some? {
      assert whole.value[0] == head.value[0] && whole.value[1] == head.value[1] && whole.value[2] == head.value[2];
    }
  }

  /** But every item is deserialized: a non-numeric item anywhere after the
      first three makes the read fail, as it would anywhere else. */
  lemma NonNumericExtraItemFails(items: seq<Json>, extra: seq<Json>, k: nat)
    requires |items| == 3
    requires k < |extra| && !extra[k].JNum?
    ensures ReadJson(None, JArr(items + extra)) == Failure(JsonSerialization)
  {
    assert (items + extra)[3 + k] == extra[k];
  }

  /** Likewise for an existing coordinate array: entries after the third are
      never read. */
  lemma ExistingValueIgnoresExtraItems(a: seq<real>, extra: seq<real>, reader: Json)
    requires |a| == 3
    ensures ReadJson(Some(a + extra), reader) == ReadJson(Some(a), reader)
  {
  }

  /** Round trip: reading what was written gives back the same position,
      strictly equal. */
  lemma RoundTrip(id: nat, p: GeographicPosition)
    ensures ReadJson(None, WriteJson(Obj(id, p)).value) == Success(p)
    ensures ReadJson(None, WriteJson(Obj(id, p)).value).value.StrictlyEquals(p)
  {
    var c := p.coordinates;
    NumbersOfNumberArray(c);
    assert WriteJson(Obj(id, p)).value == NumberArray(c);
    CreateFromAccessors(p);
  }
}

=== FILE: runtime.dfy ===
/** The pieces of the .NET runtime that the geometry classes rely on: the
    exceptions they throw, object references (null, an instance of the class at
    hand, or an instance of some other runtime type), reference identity, and
    the `Equals(object)` / `object.Equals(a, b)` pattern every class repeats. */
module Runtime {

  /** Why an argument was refused; stands for the exception message. */
  datatype Reason =
    | MayNotBeEmpty       // blank latitude or longitude text
    | BadLatitude         // unparseable, or |latitude| > 90
    | BadLongitude        // unparseable, or |longitude| > 180
    | BadAltitude         // unparseable altitude text
    | TooFewPositions     // a LineString with fewer than two positions
    | NotLinearRings      // a Polygon ring that is not a closed ring of four or more

  /** The exceptions the modelled code can throw. */
  datatype Exception =
    | ArgumentNull(paramName: string)
    | ArgumentOutOfRange(paramName: string, reason: Reason)
    | Argument(paramName: string, reason: Reason)
    | InvalidOperation       // Enumerable.First/Last on an empty sequence
    | IndexOutOfRange        // an array index past the end
    | NullReference          // a member access through null
    | JsonSerialization      // Newtonsoft could not read the JSON as the requested type

  /** A reference of static type `object` (or of a class type): null, an
      instance the modelled code accepts as a `T` (`Obj`), or one it does not
      (`Foreign`). Where the code compares exact runtime types, `Obj` is an
      instance of exactly `T`; where it casts with `as` or tests with `is`, a
      subclass instance is an `Obj` too. `id` is the object's identity. */
  datatype Ref<T> = Null | Obj(id: nat, value: T) | Foreign(id: nat)

  /** `object.ReferenceEquals`: both null, or the same object. */
  predicate ReferenceEquals<T>(a: Ref<T>, b: Ref<T>)
  {
    (a.Null? && b.Null?) || (!a.Null? && !b.Null? && a.id == b.id)
  }

  /** The `Equals(object obj)` override shared by the geometry classes: false
      for null, true for the same reference, false for another runtime type,
      and otherwise the class's typed `Equals`. */
  function OverrideEquals<T>(self: Ref<T>, obj: Ref<T>, typedEquals: (T, T) -> bool): (r: bool)
    requires self.Obj?
    ensures obj.Null? ==> !r
    ensures ReferenceEquals(self, obj) ==> r
    ensures obj.Foreign? && obj.id != self.id ==> !r
    ensures obj.Obj? && obj.id != self.id ==> (r <==> typedEquals(self.value, obj.value))
  {
    if obj.Null? then false
    else if ReferenceEquals(self, obj) then true
    else if obj.Foreign? then false
    else typedEquals(self.value, obj.value)
  }

  /** `object.Equals(object a, object b)`, which every `operator ==` of the
      older classes calls: the same reference (or both null) is equal, exactly
      one null is unequal, and otherwise `a.Equals(b)` decides. The left
      operand is never of another runtime type: such an object would run its
      own `Equals` override. */
  function StaticEquals<T>(a: Ref<T>, b: Ref<T>, typedEquals: (T, T) -> bool): (r: bool)
    requires !a.Foreign?
    ensures ReferenceEquals(a, b) ==> r
    ensures a.Null? != b.Null? ==> !r
    ensures a.Obj? && b.Foreign? && a.id != b.id ==> !r
    ensures a.Obj? && b.Obj? && a.id != b.id ==> (r <==> typedEquals(a.value, b.value))
  {
    if ReferenceEquals(a, b) then true
    else if a.Null? || b.Null? then false
    else OverrideEquals(a, b, typedEquals)
  }
}

=== FILE: wrappers.dfy ===
/** Option and Result: the model's stand-ins for C# null and for thrown exceptions.
    Both are failure-compatible, so `:-` propagates the first failure. */
module Wrappers {

  /** A nullable value: `None` plays the part of a null reference. */
  datatype Option<+T> = None | Some(value: T) {

    predicate IsFailure() {
      None?
    }

    function PropagateFailure<U>(): Option<U>
      requires None?
    {
      None
    }

    function Extract(): T
      requires Some?
    {
      value
    }
  }

  /** The outcome of a call that may throw: `Failure` carries the exception. */
  datatype Result<+T, +E> = Success(value: T) | Failure(error: E) {

    predicate IsFailure() {
      Failure?
    }

    function PropagateFailure<U>(): Result<U, E>
      requires Failure?
    {
      Failure(error)
    }

    function Extract(): T
      requires Success?
    {
      value
    }
  }
}
